=== FILE: README.md ===
# Node-release and auto-merge bots, modelled in Dafny

This project models the two bots of a small GitHub automation service. Its
claims are proved with Dafny.

- **node-release** (`src/bots/node-release.js`) works in three steps:
  - It resolves the newest node.js versions from the release index and the
    CircleCI image tags: `stable`, `lts`, `stable_circle`, `lts_circle` and the
    `isLTS` table.
  - For each repository, it decides whether the `engines.node` pin in
    `package.json` needs bumping.
  - It rewrites the version in `package.json`, `.travis.yml`, `circle.yml`
    and `.circleci/config.yml` with global regular-expression substitutions.
    It then builds the branch / commit / pull-request call plan. In a dry
    run the plan is returned; otherwise it is executed in order.
- **auto-merge** (`src/bots/auto-merge.js`) walks the open issues page by
  page:
  - It picks the pull requests that an allow-listed bot account last updated
    more than an hour ago.
  - It reduces each pull request's commit statuses to the latest one per
    check context.
  - It squash-merges when every latest status is a success and the pull
    request has exactly one commit.
  - It deletes the head branch after a merge when the branch lives in the
    base repository.

Modules:

| file | module | contents |
|---|---|---|
| `outcomes.dfy` | `Outcomes` | `Option`, `Result` and the error kinds: HTTP status, assertion, `ReferenceError`, parse failure |
| `text.dfy` | `Text` | ASCII digits (`\d`), `\d+\.\d+\.\d+` triples, JavaScript's `<` on strings, decimal rendering of integers |
| `versions.dfy` | `Versions` | release-tag filter, strict semver parse, `maxSatisfying`, `isLTS`, the four targets |
| `substitution.dfy` | `Substitution` | `String.prototype.replace` with the five `/<prefix>\d+\.\d+\.\d+<suffix>/g` patterns |
| `contents.dfy` | `Contents` | `getContent` (the security-critical type check) and `tryGetContent` (404 means absent) |
| `node_release.dfy` | `NodeRelease` | `needsUpdate`, patch generation, the call plan, dry run, sequential execution, fan-out |
| `statuses.dfy` | `Statuses` | the latest-status-wins reduction and the merge predicate |
| `paragraphs.dfy` | `Paragraphs` | `split` / `join` on `"\n\n"` |
| `sequences.dfy` | `Sequences` | in-order concatenation of lists, for calls and requests issued one step after another |
| `auto_merge.dfy` | `AutoMerge` | candidate filter, `mergePullRequest`, `handlePullRequest`, the page loop |

How the outside world is represented:

- Network answers are inputs. A repository has two functions from path to
  contents reply: `files`, the replies `needsUpdate` reads, and `refetched`,
  the replies `updateRepo` reads again afterwards. It also has a function
  from branch name to branch reply. The auto-merge service is a record of
  response functions.
- Mutating calls are data:
  - node-release's `Call` plan, executed through a caller-supplied
    `exec: Call -> Result<()>`;
  - auto-merge's `Request` trace, meaning every request in the order it is
    made.
- The clock is the parameter `now`. `toISOString` is the parameter `isoOf`.
- Base64 decoding and `JSON.parse(...).engines.node` are the abstract
  functions of `Codec`.

Where the code's behaviour may surprise a reader, the model follows the code:

- **Tied statuses.** Among the statuses of one context, every status tied
  at the greatest `created_at` is kept, not only the last one seen.
  Therefore a failure tied with a success blocks the merge
  (`Statuses.AuthoritativeSpec`, `Statuses.LatestNonSuccessBlocks`).
- **The `package.json` pattern.** It requires `"node": "` with a space after
  the colon (`NodeRelease.PackagePattern`). A manifest written
  `{"node":"14.2.0"}` has no match. Its run rejects with "Expected
  package.json to be edited".
- **When a patch changes text.** A substitution leaves a text unchanged
  exactly when every match already carries the target version, and that
  includes a text with no match at all (`Substitution.ScanUnchangedIff`). So
  "the new content differs from the old" is not automatic. The code asserts
  it, and the model carries the assertion as an error path.
- **Pin equal to a CircleCI target.** `needsUpdate` compares the pin only
  with `lts` and `stable`. A repository pinned exactly to its
  `stable_circle` / `lts_circle` target is judged out of date whenever that
  target differs from both `lts` and `stable`. With no `node-<target>`
  branch yet, it then fails at the `package.json` assertion
  (`NodeRelease.PinnedToCircleTargetFails`).
  The model keeps this behaviour, since the intended comparison is not
  evident.

## Model

| member | source | states |
|---|---|---|
| Versions.SemverParse | src/bots/node-release.js:10-17 | a candidate parses exactly when it is a `\d+\.\d+\.\d+` triple that is the decimal rendering of its own value, so no group has a leading zero; the result is that value, and rendering it gives back the candidate |
| Versions.SemverParseRendered | src/bots/node-release.js:10-17 | every version's rendering `X.Y.Z` parses back to that version |
| Versions.MaxSatisfying | src/bots/node-release.js:10-17 | no result exactly when no candidate parses; otherwise a candidate that parses and is at least every parsing candidate |
| Versions.Candidates | src/bots/node-release.js:11-15 | a string is a candidate exactly when some release passing the filter has it as its version without the first character |
| Versions.MaxVersionSpec | src/bots/node-release.js:9-18 | `maxVersion` is null exactly when no release is a `vX.Y.Z` tag that semver accepts; otherwise it is such a release's version without the `v`, and at least every such release |
| Versions.Table | src/bots/node-release.js:30-35 | keys are exactly the stripped `vX.Y.Z` versions; each value is the `lts` truthiness of the last release with that version |
| Versions.TableStepKeeps | src/bots/node-release.js:30-35 | one step of the `reduce` keeps the table exact: its keys are the stripped tags seen so far, each mapped to the `lts` flag of the last such release |
| Versions.LtsTableSpec | src/bots/node-release.js:30-35 | the `isLTS` table has a key for exactly each stripped release tag, and the later of two releases with the same version decides its value |
| Versions.Filter | src/bots/node-release.js:37-42 | a release survives exactly when it is in the input and satisfies the predicate |
| Versions.ResolveBounds | src/bots/node-release.js:36-43 | `lts`, `stable_circle` and `lts_circle` exist only when `stable` does and are never greater; `lts_circle` is bounded by both `lts` and `stable_circle` |
| Versions.CircleTargetsAreTags | src/bots/node-release.js:38-43 | the CircleCI-restricted targets are names of CircleCI image tags |
| Contents.GetContent | src/bots/node-release.js:48-61 | content is returned exactly when the response describes a file whose content is a string; other responses are assertion failures, failed reads reject with their status |
| Contents.TryGetContent | src/bots/node-release.js:62-70 | a file is present with content c exactly when `getContent` yields c; absent exactly when it rejects with 404; every other rejection propagates unchanged |
| NodeRelease.ChooseMode | src/bots/node-release.js:86-89 | the mode is on the LTS track exactly when `isLTS` has a true entry under the pin's property key, and on CircleCI exactly when `.circleci/config.yml` exists |
| NodeRelease.ReadPinned | src/bots/node-release.js:73-77 | a pin is read exactly when `package.json` is read, `.circleci/config.yml` is read or absent and `engines.node` parses; the pin is the parsed value and the flag says whether `.circleci/config.yml` exists; a failed `package.json` read rejects with its error, and otherwise a failed `.circleci/config.yml` read does |
| NodeRelease.NeedsUpdate | src/bots/node-release.js:72-103 | read failures propagate; an up-to-date pin answers false; otherwise an existing `node-<target>` branch answers false, a reply naming another branch fails the `b.name === branch` assertion, a 404 answers the mode, any other failure rejects; a mode is answered only when the branch is missing |
| NodeRelease.UpToDateIgnoresBranches | src/bots/node-release.js:80-85 | when the pin equals `lts` or `stable`, the answer is false whatever branches the repository has |
| Substitution.MatchAt | src/bots/node-release.js:116 | a match spans the prefix, at least five characters of version and the suffix, inside the text; and wherever the prefix, a maximal digit triple and the suffix follow one another, that is the match |
| Substitution.ScanUnchangedIff | src/bots/node-release.js:116-117 | a global substitution leaves the text unchanged exactly when every match already carries the target version |
| NodeRelease.Edit | src/bots/node-release.js:116-117 | succeeds exactly when the substitution changes the text, with the changed text, and for a well-formed pattern and a triple target that is exactly when some match carries another version; otherwise fails with the given assertion message |
| NodeRelease.OptionalUpdate | src/bots/node-release.js:143-164 | an absent file contributes nothing; a present one contributes exactly one update, of its path to the substituted content, which differs from the original; it fails with "Expected <path> to be edited" exactly when the substitution changes nothing, that is when every match already carries the target |
| NodeRelease.TravisUpdate | src/bots/node-release.js:126-142 | an absent `.travis.yml` contributes nothing; a present one succeeds exactly when both substitutions in turn change the text, with the doubly substituted content |
| NodeRelease.BuildUpdates | src/bots/node-release.js:114-164 | succeeds exactly when the `package.json` substitution changes the text, the new text parses to the target and every CI file's update succeeds; the list is then the `package.json` update followed by the `.travis.yml`, `circle.yml` and `.circleci/config.yml` updates in that order; each non-Travis content differs from the original; an unchanged `package.json`, a parse failure and a wrong parsed version fail in that order of precedence |
| NodeRelease.Execute | src/bots/node-release.js:199-205 | all calls succeed exactly when each succeeds, then every call was issued; on failure the issued calls are a prefix that ends with the first failing call, all calls before it succeeded |
| NodeRelease.Perform | src/bots/node-release.js:199-205 | a dry run issues nothing and returns the plan; a real run succeeds exactly when every call succeeds, having then issued the whole plan and returning it; a failed real run issued a non-empty prefix of the plan |
| NodeRelease.Refetch | src/bots/node-release.js:109-114 | the four reads of `updateRepo` succeed exactly when each does, and yield each file's content or absence |
| NodeRelease.Prepare | src/bots/node-release.js:105-114 | no update when `needsUpdate` answers false; its failures propagate; when an update is due, a failed read or patch rejects with its error, and otherwise the pending update is the answered mode with exactly the patch list; a pending update starts with `package.json` |
| NodeRelease.PlanFor | src/bots/node-release.js:165-198 | the plan is the branch from `master`, the commit of the updates with message `Update to node v<target>`, and the pull request into `master` with that title and the release-notes body, for branch `node-<target>` |
| NodeRelease.UpdateRepo | src/bots/node-release.js:105-208 | empty plan when nothing is due; failures before the plan propagate with no call issued; for a pending update a dry run returns its plan and issues nothing, and a real run succeeds exactly when every call of the plan succeeds, issuing exactly the plan; a failed real run issued between one and three calls, which are the plan's first calls |
| NodeRelease.DryRunEquivalence | src/bots/node-release.js:199-205 | when every call succeeds, a dry run returns the same plan a real run returns, and the real run issued exactly that plan |
| NodeRelease.UpdateRepoAsWritten | src/bots/node-release.js:165-198 | the code as written issues no call and never returns a non-empty plan |
| NodeRelease.AsWrittenNeverOpensPullRequest | src/bots/node-release.js:165-179 | wherever the corrected run yields a plan, the code as written rejects with a `ReferenceError` for `branch` |
| NodeRelease.PinnedToCircleTargetFails | src/bots/node-release.js:80-90 | a CircleCI repository pinned to its `*_circle` target with no branch yet fails at the "Expected package.json to be edited" assertion, issuing nothing |
| NodeRelease.Join | src/bots/node-release.js:213-222 | the joined result succeeds exactly when every repository run does, with their plans in order; a failure is the failure of one of the runs |
| NodeRelease.NodeReleaseBot | src/bots/node-release.js:210-225 | a feed failure rejects before any call; otherwise the result holds one plan per repository and succeeds exactly when every repository's run does, and the issued calls are every repository's calls, repository after repository; each run is the corrected `NodeRelease.UpdateRepo`, since the code as written rejects with a `ReferenceError` instead (see Findings) |
| NodeRelease.DryRunIssuesNothing | src/bots/node-release.js:199-200 | a dry run of the whole bot issues no call for any repository |
| Statuses.StepSummarises | src/bots/auto-merge.js:53-56 | one iteration keeps the map holding, for each context seen so far, the greatest `created_at` of that context, attained by one of its statuses |
| Statuses.LatestTimes | src/bots/auto-merge.js:52-57 | the map's keys are exactly the contexts, and each value is a `created_at` of that context that no status of it exceeds |
| Statuses.KeepLatest | src/bots/auto-merge.js:58-60 | a status is kept exactly when its `created_at` is its context's entry in the map |
| Statuses.KeptAt | src/bots/auto-merge.js:52-60 | a given status is kept exactly when it occurs in the input and no status of its context was created after it |
| Statuses.AuthoritativeSpec | src/bots/auto-merge.js:52-60 | a status is kept exactly when no status of its context was created after it, so all statuses tied at the maximum are kept |
| Statuses.EveryContextKept | src/bots/auto-merge.js:52-61 | every context of the input keeps a status; the kept list is empty exactly when the input is |
| Statuses.ShouldMergeIff | src/bots/auto-merge.js:61 | merging is permitted exactly when there is a status and every status not superseded within its context is a success |
| Statuses.LaterSuccessSupersedes | src/bots/auto-merge.js:54-61 | a failure followed by a later success of the same context permits the merge |
| Statuses.LatestNonSuccessBlocks | src/bots/auto-merge.js:58-61 | a non-success status that nothing later in its context supersedes forbids the merge, even when tied with a success |
| AutoMerge.MergableStaysMergable | src/bots/auto-merge.js:14-21 | with a clock whose ISO strings order like the times, a candidate remains a candidate at every later time |
| AutoMerge.RecentIsNotMergable | src/bots/auto-merge.js:17-18 | an issue updated within the last hour is not a candidate |
| AutoMerge.Candidates | src/bots/auto-merge.js:80 | an issue is a candidate exactly when it is listed and is a pull request by an allow-listed login last updated before one hour ago; a one-issue listing yields that issue once or nothing, so with `CandidatesAppend` each listed candidate appears once, in listing order |
| AutoMerge.CandidatesAppend | src/bots/auto-merge.js:80 | the filter keeps listing order: the candidates of two consecutive stretches of the listing are those of the first followed by those of the second |
| Text.NumberTextValue | src/bots/auto-merge.js:29 | the rendered pull request number is a non-empty digit string that reads back as the number and starts with `0` only for zero |
| Paragraphs.JoinSplit | src/bots/auto-merge.js:29-30 | splitting on a separator and joining with it gives back the original text |
| Paragraphs.FirstPiece | src/bots/auto-merge.js:29 | the first paragraph is the text before the leftmost separator, or the whole text when there is none |
| AutoMerge.MessageReassembles | src/bots/auto-merge.js:29-30 | the title's paragraph, followed by a blank line and the commit message when there were more paragraphs, is the original commit message; the paragraph holds no blank line |
| AutoMerge.TitleCarriesNumber | src/bots/auto-merge.js:29 | the commit title ends in ` (#<n>)`, whose digits read back as the pull request number |
| AutoMerge.MergeRequestFor | src/bots/auto-merge.js:25-32 | the merge goes to the base repository, names the pull request and head sha and squashes; the title is the commit message's first paragraph, which holds no blank line, followed by ` (#<n>)` whose digits read back as the number; that paragraph alone, or followed by a blank line and the merge message, is the commit message |
| AutoMerge.SubmitMerge | src/bots/auto-merge.js:25-44 | the requests are exactly the one squash merge followed by the deletion of `heads/<ref>`, which is issued exactly when the service merged and head and base repositories have the same id; a rejected merge fails the step with its error, a deletion decides the outcome, and otherwise the step succeeds |
| AutoMerge.MergePullRequest | src/bots/auto-merge.js:22-47 | the commits are fetched first, and a failed fetch rejects; the merge is requested exactly when there is exactly one commit, built from that commit; with any other number of commits the step ends successfully after the fetch; with one, the merge step follows and decides the outcome; the head branch `heads/<ref>` is deleted exactly when the merge happened and head and base repositories have the same id |
| AutoMerge.AfterStatuses | src/bots/auto-merge.js:50-71 | after the statuses fetch, the commits are fetched exactly when merging is permitted; when permitted the merge follows and decides the outcome, otherwise the step succeeds with no further request |
| AutoMerge.HandlePullRequest | src/bots/auto-merge.js:48-73 | a pull request that is not mergeable issues no request at all; otherwise statuses are fetched first and a failed fetch rejects with its error; the commits are fetched exactly when the latest statuses permit merging, and the merge then decides the outcome; once the statuses arrive nothing but the judged rest of the handler follows, so statuses that forbid merging issue no further request |
| AutoMerge.MergeRequestedIff | src/bots/auto-merge.js:23-65 | a squash merge is requested exactly when the pull request is mergeable, its latest statuses all succeeded and it has exactly one commit |
| AutoMerge.LaterSuccessMerges | src/bots/auto-merge.js:48-65 | a failure of `ci` followed by a later success, on a mergeable single-commit pull request, leads to the merge request |
| AutoMerge.HandleIssue | src/bots/auto-merge.js:81 | each candidate starts with the fetch of its pull request, and a failed fetch rejects with its error; a fetched pull request is then handled, whose requests follow and whose outcome is the candidate's; no page is fetched while handling it |
| AutoMerge.Serial | src/bots/auto-merge.js:79-83 | every queued step runs, even after an earlier one failed; the requests are each step's requests, step after step; the whole succeeds exactly when each step does, and otherwise fails with the earliest failure |
| AutoMerge.HandleCandidates | src/bots/auto-merge.js:79-83 | every candidate's pull request is fetched even after an earlier failure, and the requests are each candidate's requests in listing order; the page succeeds exactly when every candidate does, and otherwise fails with the first failure in listing order |
| AutoMerge.Run | src/bots/auto-merge.js:75-87 | every run starts by fetching a page; a failed fetch or a failed page ends the run with that failure and no further page; after a page whose candidates all succeeded the run ends successfully without a next page, and otherwise continues with the next page's run and ends as it does |
| AutoMerge.RunSucceedsIff | src/bots/auto-merge.js:75-87 | the run resolves exactly when every page of the listing arrives and every page's candidates all succeed, so a failed fetch of a later page rejects the run |
| AutoMerge.RunIsSequential | src/bots/auto-merge.js:75-87 | over a listing whose pages all arrive, the run is the in-order iteration over the pages: each page fetched, then its candidates fully handled, stopping at the first failing page or after the last page |

## Left out

- Network I/O through `github-basic` and `then-request` is not modelled. Replies are inputs, and mutating calls are plan data or traces.
- Base64 decoding and `JSON.parse` are library calls. They are the abstract functions `Codec.decode` and `Codec.enginesNode`.
- Concurrency is not modelled:
  - `Promise.all` over the reads and over the repositories is modelled as in-order evaluation, with the first failure in list order reported. Which concurrent rejection wins is timing-dependent.
  - `throat(1, …)` is the sequential fold it amounts to.
- The semver parser is modelled only for `X.Y.Z` triples. Its maximum string length and its `MAX_SAFE_INTEGER` limit on each number are left out. Release versions beyond those limits do not occur in the release index.
- Object property keys that collide with `Object.prototype` members in `isLTS` and `statusesMap` (e.g. a context named `__proto__`) are not modelled.
- JavaScript compares strings by UTF-16 code units. The model compares Dafny characters, and the two agree on the ASCII ISO timestamps involved.
- Logging through `console` and `chalk`, the hard-coded repository list and token configuration, and the HTTP glue in `src/index.js` are not modelled.
- `Date.now()` and `toISOString` are the parameters `now` and `isoOf`. The source reads the clock once per issue, while the model uses one `now` per run.
- A transport failure without a status code is represented as a failed reply with a code other than 404.
- AutoMerge.Run: the pagination cursor is modelled as a finite listing of pages, so a listing service that never stops offering a next page is not modelled.
- AutoMerge.HandlePullRequest: `pr.mergeable` is modelled as a boolean, with `null` (not yet computed) as false, which is how the source's truthiness test treats it.
- NodeRelease.TravisUpdate: the contract states only what the source asserts, that each of the two substitutions changes the text it is given. That the final `.travis.yml` differs from the original is not proved here.
- AutoMerge.PullRequest: a pull request whose head repository was deleted (`head.repo` null) is not modelled; the head is always a repository. The source reads `pr.head.repo.id` after merging such a pull request, which throws a TypeError and rejects the page and the run.
- NodeRelease.NeedsUpdate: the `assert(b.name === branch)` failure is modelled as an assertion error without the message Node generates for it.

## Findings

| source | as written | input that shows it | evidently intended | confidence | as-written member | corrected member |
|---|---|---|---|---|---|---|
| src/bots/node-release.js:165-179 | `updateRepo` builds the commit and the branch and pull calls from `branch`, which is bound only inside `needsUpdate`, so it throws a `ReferenceError` | any repository whose pin is neither `lts` nor `stable` and whose `node-<target>` branch is missing, with CI files that all change | the branch `'node-' + version[mode]` that `needsUpdate` looked up | not executed; high | NodeRelease.UpdateRepoAsWritten (with NodeRelease.AsWrittenNeverOpensPullRequest) | NodeRelease.UpdateRepo |

=== FILE: auto_merge.dfy ===
/** The auto-merge bot: walk the open issues page by page, pick the pull
    requests a known bot opened more than an hour ago, and squash-merge each
    one whose latest statuses all succeeded and that has a single commit,
    deleting its branch afterwards when it lives in the base repository.
    The hosting service is a record of response functions; the requests the
    bot makes, in order, are the trace it leaves. */
module AutoMerge {
  import opened Outcomes
  import opened Text
  import opened Statuses
  import opened Paragraphs
  import opened Sequences

  /** Authors whose pull requests are merged automatically. */
  const Logins: seq<string> := ["ForbesLindesay-Bot", "greenkeeperio-bot"]

  /** One hour in milliseconds: the minimum age of a candidate. */
  const OneHour: int := 1000 * 60 * 60

  /** An entry of the issue listing; `pullRequest` is the URL of the pull
      request when the issue is one. */
  datatype Issue = Issue(pullRequest: Option<string>, login: string, updatedAt: string)

  datatype RepoRef = RepoRef(id: int, owner: string, name: string)

  /** The fields of a pull request the bot reads; `mergeable` is false also
      when the service has not computed it yet (`null`). */
  datatype PullRequest = PullRequest(
    number: nat,
    mergeable: bool,
    statusesUrl: string,
    commitsUrl: string,
    headSha: string,
    headRef: string,
    head: RepoRef,
    base: RepoRef)

  datatype Commit = Commit(message: string)

  /** The body of the squash-merge request. */
  datatype MergeRequest = MergeRequest(
    owner: string, repo: string, number: nat,
    title: string, message: string, sha: string, squash: bool)

  datatype RefDeletion = RefDeletion(owner: string, repo: string, ref: string)

  /** A request to the hosting service. */
  datatype Request =
    | FetchPage
    | GetPull(url: string)
    | GetStatuses(url: string)
    | GetCommits(url: string)
    | PutMerge(merge: MergeRequest)
    | DeleteRef(deletion: RefDeletion)

  /** The service's answers; `merge` answers whether the merge happened. */
  datatype Api = Api(
    pull: string -> Result<PullRequest>,
    statuses: string -> Result<seq<Status>>,
    commits: string -> Result<seq<Commit>>,
    merge: MergeRequest -> Result<bool>,
    deleteRef: RefDeletion -> Result<()>)

  /** The requests made, in order, and how the run ended. */
  datatype Trace = Trace(requests: seq<Request>, outcome: Result<()>)

  /** One page of the issue listing; `next` is the fetch of the following
      page when the listing has one. */
  datatype Page = Page(issues: seq<Issue>, next: Option<Result<Page>>)

  /** `isMergable`: a pull request by an allow-listed author whose last
      update is strictly before one hour ago. `isoOf` renders a time in
      milliseconds as `toISOString` does. */
  predicate IsMergable(issue: Issue, now: int, isoOf: int -> string) {
    && issue.pullRequest.Some?
    && issue.login in Logins
    && Before(issue.updatedAt, isoOf(now - OneHour))
  }

  /** `isoOf` orders times as their ISO strings compare. */
  ghost predicate Chronological(isoOf: int -> string) {
    forall a: int, b: int :: a < b ==> Before(isoOf(a), isoOf(b))
  }

  /** A candidate stays a candidate as time passes. */
  lemma MergableStaysMergable(issue: Issue, now: int, later: int, isoOf: int -> string)
    requires Chronological(isoOf) && now <= later
    requires IsMergable(issue, now, isoOf)
    ensures IsMergable(issue, later, isoOf)
  {
    if now < later {
      BeforeTransitive(issue.updatedAt, isoOf(now - OneHour), isoOf(later - OneHour));
    }
  }

  /** An issue updated within the last hour is not a candidate. */
  lemma RecentIsNotMergable(issue: Issue, now: int, isoOf: int -> string)
    requires Chronological(isoOf)
    requires exists t: int :: now - OneHour <= t && issue.updatedAt == isoOf(t)
    ensures !IsMergable(issue, now, isoOf)
  {
    var t: int :| now - OneHour <= t && issue.updatedAt == isoOf(t);
    if t == now - OneHour {
      BeforeIrreflexive(issue.updatedAt);
    } else {
      BeforeAsymmetric(isoOf(now - OneHour), isoOf(t));
    }
  }

  /** `issues.filter(isMergable)`. */
  function Candidates(issues: seq<Issue>, now: int, isoOf: int -> string): (cs: seq<Issue>)
    ensures forall i :: 0 <= i < |cs| ==> IsMergable(cs[i], now, isoOf)
    ensures forall x :: x in cs <==> x in issues && IsMergable(x, now, isoOf)
    // a one-issue listing yields that issue once or not at all; with
    // CandidatesAppend this fixes the result for every listing
    ensures |issues| == 1 ==> cs == (if IsMergable(issues[0], now, isoOf) then issues else [])
  {
    if |issues| == 0 then []
    else if IsMergable(issues[0], now, isoOf) then [issues[0]] + Candidates(issues[1..], now, isoOf)
    else Candidates(issues[1..], now, isoOf)
  }

  /** The filter keeps listing order: the candidates of two consecutive
      stretches of the listing are those of the first, then those of the
      second. */
  lemma {:induction false} CandidatesAppend(a: seq<Issue>, b: seq<Issue>, now: int, isoOf: int -> string)
    ensures Candidates(a + b, now, isoOf) == Candidates(a, now, isoOf) + Candidates(b, now, isoOf)
  {
    if |a| == 0 {
      assert a + b == b;
    } else {
      assert (a + b)[1..] == a[1..] + b;
      CandidatesAppend(a[1..], b, now, isoOf);
    }
  }

  /** `commit_title`: the first paragraph and the pull request number. */
  function CommitTitle(message: string, number: nat): string {
    Split(message, BlankLine)[0] + " (#" + NumberText(number) + ")"
  }

  /** `commit_message`: the remaining paragraphs, re-joined. */
  function CommitBody(message: string): string {
    Join(Split(message, BlankLine)[1..], BlankLine)
  }

  /** The title's paragraph, followed by a blank line and the body when
      there was more than one paragraph, is the original message; that
      paragraph is the text before the first blank line. */
  lemma MessageReassembles(message: string)
    ensures var first := Split(message, BlankLine)[0];
      && message == first + (if |Split(message, BlankLine)| > 1 then BlankLine + CommitBody(message) else "")
      && (forall j :: 0 <= j < |first| ==> !OccursAt(message, BlankLine, j))
  {
    JoinSplit(message, BlankLine);
    FirstPiece(message, BlankLine);
  }

  /** The title ends in the pull request number, which reads back. */
  lemma TitleCarriesNumber(message: string, number: nat)
    ensures var t := CommitTitle(message, number);
      var d := NumberText(number);
      && |t| >= |d| + 4
      && t[|t| - |d| - 4..] == " (#" + d + ")"
      && t[|t| - |d| - 1..|t| - 1] == d
      && AllDigits(d) && DigitsValue(d) == number
  {
    NumberTextValue(number);
    var d := NumberText(number);
    var t := CommitTitle(message, number);
    var first := Split(message, BlankLine)[0];
    assert t == first + (" (#" + d + ")");
    assert t[|t| - |d| - 1..|t| - 1] == d;
  }

  /** The squash merge of a single-commit pull request into its base. */
  function MergeRequestFor(pr: PullRequest, commit: Commit): (m: MergeRequest)
    ensures m.owner == pr.base.owner && m.repo == pr.base.name && m.number == pr.number
    ensures m.sha == pr.headSha && m.squash
    ensures m.title == CommitTitle(commit.message, pr.number)
    ensures m.message == CommitBody(commit.message)
    // the title ends in " (#<number>)", whose digits read back as the number
    ensures var d := NumberText(pr.number);
      && |m.title| >= |d| + 4
      && m.title[|m.title| - |d| - 4..] == " (#" + d + ")"
      && AllDigits(d) && DigitsValue(d) == pr.number
    // before it stands the message's first paragraph, which holds no blank
    // line; that paragraph, then a blank line and the body when there is
    // more than one paragraph, is the commit message
    ensures var first := m.title[..|m.title| - |NumberText(pr.number)| - 4];
      && (forall j :: 0 <= j < |first| ==> !OccursAt(commit.message, BlankLine, j))
      && (commit.message == first + BlankLine + m.message || (commit.message == first && m.message == ""))
  {
    CommitParts(commit.message, pr.number);
    MergeRequest(pr.base.owner, pr.base.name, pr.number,
      CommitTitle(commit.message, pr.number), CommitBody(commit.message), pr.headSha, true)
  }

  /** The title and body of a squash commit, taken apart again. */
  lemma CommitParts(message: string, number: nat)
    ensures var t := CommitTitle(message, number);
      var d := NumberText(number);
      && |t| >= |d| + 4
      && t[|t| - |d| - 4..] == " (#" + d + ")"
      && AllDigits(d) && DigitsValue(d) == number
    ensures var t := CommitTitle(message, number);
      var first := t[..|t| - |NumberText(number)| - 4];
      && (forall j :: 0 <= j < |first| ==> !OccursAt(message, BlankLine, j))
      && (message == first + BlankLine + CommitBody(message) || (message == first && CommitBody(message) == ""))
  {
    TitleCarriesNumber(message, number);
    MessageReassembles(message);
    var t := CommitTitle(message, number);
    var first := Split(message, BlankLine)[0];
    assert t == first + (" (#" + NumberText(number) + ")");
    assert t[..|t| - |NumberText(number)| - 4] == first;
    if |Split(message, BlankLine)| <= 1 {
      assert Split(message, BlankLine)[1..] == [];
    }
  }

  /** The head branch of a pull request, in the head repository. */
  function HeadBranch(pr: PullRequest): RefDeletion {
    RefDeletion(pr.head.owner, pr.head.name, "heads/" + pr.headRef)
  }

  /** `mergePullRequest`. */
  function MergePullRequest(pr: PullRequest, api: Api): (t: Trace)
    ensures |t.requests| >= 1 && t.requests[0] == GetCommits(pr.commitsUrl)
    ensures forall k :: 0 <= k < |t.requests| ==> t.requests[k].GetCommits? || t.requests[k].PutMerge? || t.requests[k].DeleteRef?
    ensures api.commits(pr.commitsUrl).Err? ==> t == Trace([GetCommits(pr.commitsUrl)], Err(api.commits(pr.commitsUrl).error))
    // the merge is requested only for exactly one commit, and with that commit's message
    ensures (exists m :: PutMerge(m) in t.requests)
      <==> api.commits(pr.commitsUrl).Ok? && |api.commits(pr.commitsUrl).value| == 1
    ensures forall m :: PutMerge(m) in t.requests ==>
      api.commits(pr.commitsUrl).Ok? && |api.commits(pr.commitsUrl).value| == 1
      && m == MergeRequestFor(pr, api.commits(pr.commitsUrl).value[0])
    // the head branch is deleted exactly when the merge happened and the
    // pull request does not come from a fork
    ensures (exists d :: DeleteRef(d) in t.requests)
      <==> (exists m :: PutMerge(m) in t.requests && api.merge(m) == Ok(true)) && pr.head.id == pr.base.id
    ensures forall d :: DeleteRef(d) in t.requests ==> d == HeadBranch(pr)
    // a pull request without exactly one commit is left alone successfully;
    // with one, the merge step follows the fetch and decides the outcome
    ensures api.commits(pr.commitsUrl).Ok? && |api.commits(pr.commitsUrl).value| != 1 ==>
      t == Trace([GetCommits(pr.commitsUrl)], Ok(()))
    ensures api.commits(pr.commitsUrl).Ok? && |api.commits(pr.commitsUrl).value| == 1 ==>
      var s := SubmitMerge(pr, MergeRequestFor(pr, api.commits(pr.commitsUrl).value[0]), api);
      t.requests == [GetCommits(pr.commitsUrl)] + s.requests && t.outcome == s.outcome
  {
    var get := [GetCommits(pr.commitsUrl)];
    match api.commits(pr.commitsUrl)
    case Err(e) => Trace(get, Err(e))
    case Ok(commits) =>
      if |commits| != 1 then Trace(get, Ok(()))
      else
        var m := MergeRequestFor(pr, commits[0]);
        var s := SubmitMerge(pr, m, api);
        assert PutMerge(m) in get + s.requests;
        Trace(get + s.requests, s.outcome)
  }

  /** The squash merge `m` of `pr`, then the deletion of its head branch
      when the service merged it and the branch is in the base repository. */
  function SubmitMerge(pr: PullRequest, m: MergeRequest, api: Api): (t: Trace)
    ensures |t.requests| >= 1 && t.requests[0] == PutMerge(m)
    ensures forall k :: 0 <= k < |t.requests| ==> t.requests[k].PutMerge? || t.requests[k].DeleteRef?
    ensures forall m' :: PutMerge(m') in t.requests ==> m' == m
    ensures (exists d :: DeleteRef(d) in t.requests) <==> api.merge(m) == Ok(true) && pr.head.id == pr.base.id
    ensures forall d :: DeleteRef(d) in t.requests ==> d == HeadBranch(pr)
    // a rejected merge fails the step; after a deletion the step ends as the
    // deletion did; otherwise it succeeds
    ensures api.merge(m).Err? ==> t.outcome == Err(api.merge(m).error)
    ensures (exists d :: DeleteRef(d) in t.requests) ==> t.outcome == api.deleteRef(HeadBranch(pr))
    ensures api.merge(m).Ok? && !(api.merge(m).value && pr.head.id == pr.base.id) ==> t.outcome == Ok(())
    // one merge request, then at most the one deletion
    ensures t.requests == [PutMerge(m)]
      + (if api.merge(m) == Ok(true) && pr.head.id == pr.base.id then [DeleteRef(HeadBranch(pr))] else [])
  {
    match api.merge(m)
    case Err(e) => Trace([PutMerge(m)], Err(e))
    case Ok(merged) =>
      if merged && pr.head.id == pr.base.id then
        var d := HeadBranch(pr);
        assert [PutMerge(m), DeleteRef(d)][1] == DeleteRef(d);
        Trace([PutMerge(m), DeleteRef(d)], api.deleteRef(d))
      else
        Trace([PutMerge(m)], Ok(()))
  }

  /** `handlePullRequest`. */
  function HandlePullRequest(pr: PullRequest, api: Api): (t: Trace)
    // a pull request that is not mergeable is left alone without fetching its statuses
    ensures !pr.mergeable ==> t == Trace([], Ok(()))
    ensures pr.mergeable ==> |t.requests| >= 1 && t.requests[0] == GetStatuses(pr.statusesUrl)
    ensures FetchPage !in t.requests
    // the merge is attempted exactly when the latest statuses all succeeded
    ensures GetCommits(pr.commitsUrl) in t.requests
      <==> pr.mergeable && api.statuses(pr.statusesUrl).Ok? && ShouldMerge(api.statuses(pr.statusesUrl).value)
    ensures t.outcome.Err? && pr.mergeable && api.statuses(pr.statusesUrl).Ok? ==> GetCommits(pr.commitsUrl) in t.requests
    // a failed statuses fetch rejects; after it, the merge decides the outcome
    ensures pr.mergeable && api.statuses(pr.statusesUrl).Err? ==>
      t == Trace([GetStatuses(pr.statusesUrl)], Err(api.statuses(pr.statusesUrl).error))
    ensures pr.mergeable && api.statuses(pr.statusesUrl).Ok? ==>
      t.outcome == (if ShouldMerge(api.statuses(pr.statusesUrl).value) then MergePullRequest(pr, api).outcome else Ok(()))
    // once the statuses arrive, the judged rest of the handler is all that follows
    ensures pr.mergeable && api.statuses(pr.statusesUrl).Ok? ==>
      t == AfterStatuses(pr, api, ShouldMerge(api.statuses(pr.statusesUrl).value))
  {
    if !pr.mergeable then Trace([], Ok(()))
    else
      match api.statuses(pr.statusesUrl)
      case Err(e) => Trace([GetStatuses(pr.statusesUrl)], Err(e))
      case Ok(ss) => AfterStatuses(pr, api, ShouldMerge(ss))
  }

  /** The rest of `handlePullRequest` once the statuses arrived and were
      judged: merge when `permitted`, otherwise stop. */
  function AfterStatuses(pr: PullRequest, api: Api, permitted: bool): (t: Trace)
    ensures |t.requests| >= 1 && t.requests[0] == GetStatuses(pr.statusesUrl)
    ensures FetchPage !in t.requests
    ensures GetCommits(pr.commitsUrl) in t.requests <==> permitted
    ensures t.outcome.Err? ==> permitted
    ensures permitted ==>
      t.requests == [GetStatuses(pr.statusesUrl)] + MergePullRequest(pr, api).requests
      && t.outcome == MergePullRequest(pr, api).outcome
    ensures !permitted ==> t == Trace([GetStatuses(pr.statusesUrl)], Ok(()))
  {
    if permitted then
      var m := MergePullRequest(pr, api);
      Trace([GetStatuses(pr.statusesUrl)] + m.requests, m.outcome)
    else Trace([GetStatuses(pr.statusesUrl)], Ok(()))
  }

  /** The squash merge is requested exactly when the pull request is
      mergeable, its latest statuses all succeeded and it has one commit. */
  lemma MergeRequestedIff(pr: PullRequest, api: Api)
    ensures (exists m :: PutMerge(m) in HandlePullRequest(pr, api).requests)
      <==> && pr.mergeable
           && api.statuses(pr.statusesUrl).Ok? && ShouldMerge(api.statuses(pr.statusesUrl).value)
           && api.commits(pr.commitsUrl).Ok? && |api.commits(pr.commitsUrl).value| == 1
  {
    var t := HandlePullRequest(pr, api);
    if pr.mergeable && api.statuses(pr.statusesUrl).Ok? && ShouldMerge(api.statuses(pr.statusesUrl).value) {
      var m := MergePullRequest(pr, api);
      assert t.requests == [GetStatuses(pr.statusesUrl)] + m.requests;
      forall r ensures r in t.requests <==> r == GetStatuses(pr.statusesUrl) || r in m.requests { }
    }
  }

  /** Fetching a candidate's pull request and handling it. */
  function HandleIssue(issue: Issue, api: Api): (t: Trace)
    requires issue.pullRequest.Some?
    ensures |t.requests| >= 1 && t.requests[0] == GetPull(issue.pullRequest.value)
    ensures FetchPage !in t.requests
    // a failed fetch rejects; a fetched pull request is then handled
    ensures api.pull(issue.pullRequest.value).Err? ==>
      t == Trace([GetPull(issue.pullRequest.value)], Err(api.pull(issue.pullRequest.value).error))
    ensures api.pull(issue.pullRequest.value).Ok? ==>
      var h := HandlePullRequest(api.pull(issue.pullRequest.value).value, api);
      t.requests == [GetPull(issue.pullRequest.value)] + h.requests && t.outcome == h.outcome
  {
    var url := issue.pullRequest.value;
    match api.pull(url)
    case Err(e) => Trace([GetPull(url)], Err(e))
    case Ok(pr) =>
      var h := HandlePullRequest(pr, api);
      Trace([GetPull(url)] + h.requests, h.outcome)
  }

  /** `Promise.all` over promises started one at a time (`throat(1, …)`):
      every trace runs, in order, even after one fails, and the whole
      rejects with the earliest failure. */
  function Serial(ts: seq<Trace>): (t: Trace)
    // the requests of every trace, one trace after the other
    ensures t.requests == Concat(RequestsOf(ts))
    ensures forall i, r :: 0 <= i < |ts| && r in ts[i].requests ==> r in t.requests
    ensures forall r :: r in t.requests ==> exists i :: 0 <= i < |ts| && r in ts[i].requests
    ensures EarliestFailure(ts, t.outcome)
  {
    if |ts| == 0 then Trace([], Ok(()))
    else
      var rest := Serial(ts[1..]);
      var t := Trace(ts[0].requests + rest.requests, if ts[0].outcome.Err? then ts[0].outcome else rest.outcome);
      assert t.requests == Concat(RequestsOf(ts)) by {
        RequestsOfTail(ts);
      }
      assert forall i, r :: 0 <= i < |ts| && r in ts[i].requests ==> r in t.requests by {
        assert forall i :: 1 <= i < |ts| ==> ts[1..][i - 1] == ts[i];
      }
      assert forall r :: r in t.requests ==> exists i :: 0 <= i < |ts| && r in ts[i].requests by {
        forall r | r in t.requests
          ensures exists i :: 0 <= i < |ts| && r in ts[i].requests
        {
          if r !in ts[0].requests {
            var i :| 0 <= i < |ts[1..]| && r in ts[1..][i].requests;
            assert r in ts[i + 1].requests;
          }
        }
      }
      EarliestFailureStep(ts, rest.outcome);
      t
  }

  /** `o` is how traces run one after the other end: in success when each
      succeeded, otherwise with the earliest failure. */
  predicate EarliestFailure(ts: seq<Trace>, o: Result<()>) {
    && (o.Ok? <==> forall i :: 0 <= i < |ts| ==> ts[i].outcome.Ok?)
    && (o.Err? ==>
      exists i :: (0 <= i < |ts| && o == ts[i].outcome && forall j :: 0 <= j < i ==> ts[j].outcome.Ok?))
  }

  lemma EarliestFailureStep(ts: seq<Trace>, o: Result<()>)
    requires |ts| > 0 && EarliestFailure(ts[1..], o)
    ensures EarliestFailure(ts, if ts[0].outcome.Err? then ts[0].outcome else o)
  {
    assert forall i :: 1 <= i < |ts| ==> ts[1..][i - 1] == ts[i];
    if ts[0].outcome.Ok? && o.Err? {
      var i :| 0 <= i < |ts[1..]| && o == ts[1..][i].outcome
        && forall j :: 0 <= j < i ==> ts[1..][j].outcome.Ok?;
      assert o == ts[i + 1].outcome;
    }
  }

  /** The requests of each trace. */
  function RequestsOf(ts: seq<Trace>): (rs: seq<seq<Request>>)
    ensures |rs| == |ts| && forall i :: 0 <= i < |ts| ==> rs[i] == ts[i].requests
  {
    seq(|ts|, i requires 0 <= i < |ts| => ts[i].requests)
  }

  lemma RequestsOfTail(ts: seq<Trace>)
    requires |ts| > 0
    ensures Concat(RequestsOf(ts)) == ts[0].requests + Concat(RequestsOf(ts[1..]))
  {
    assert RequestsOf(ts)[1..] == RequestsOf(ts[1..]);
  }

  /** The candidates of one page, each handled in listing order. */
  function HandleCandidates(cs: seq<Issue>, api: Api): (t: Trace)
    requires forall i :: 0 <= i < |cs| ==> cs[i].pullRequest.Some?
    ensures FetchPage !in t.requests
    // each candidate's requests, candidate after candidate in listing order
    ensures t.requests == Concat(RequestsOf(IssueTraces(cs, api)))
    ensures forall i :: 0 <= i < |cs| ==> GetPull(cs[i].pullRequest.value) in t.requests
    // every candidate is handled even after one fails; the earliest failure is reported
    ensures EarliestFailure(IssueTraces(cs, api), t.outcome)
  {
    var ts := IssueTraces(cs, api);
    var t := Serial(ts);
    assert FetchPage !in t.requests by {}
    t
  }

  /** What each candidate does on its own, in listing order. */
  function IssueTraces(cs: seq<Issue>, api: Api): (ts: seq<Trace>)
    requires forall i :: 0 <= i < |cs| ==> cs[i].pullRequest.Some?
    ensures |ts| == |cs|
    ensures forall i :: 0 <= i < |cs| ==> ts[i] == HandleIssue(cs[i], api)
    ensures forall i :: 0 <= i < |cs| ==> GetPull(cs[i].pullRequest.value) in ts[i].requests
    ensures forall i :: 0 <= i < |cs| ==> FetchPage !in ts[i].requests
  {
    seq(|cs|, i requires 0 <= i < |cs| => HandleIssue(cs[i], api))
  }

  /** What one page's candidates do. */
  function HandlePage(page: Page, now: int, isoOf: int -> string, api: Api): Trace {
    HandleCandidates(Candidates(page.issues, now, isoOf), api)
  }

  /** `run`: fetch a page, handle its candidates, then follow the next page
      only when every candidate succeeded and the listing has one. */
  function Run(fetched: Result<Page>, now: int, isoOf: int -> string, api: Api): (t: Trace)
    ensures |t.requests| >= 1 && t.requests[0] == FetchPage
    ensures fetched.Err? ==> t == Trace([FetchPage], fetched.PropagateFailure())
    ensures fetched.Ok? && HandlePage(fetched.value, now, isoOf, api).outcome.Err? ==>
      t == Trace([FetchPage] + HandlePage(fetched.value, now, isoOf, api).requests,
                 HandlePage(fetched.value, now, isoOf, api).outcome)
    // after a page whose candidates all succeeded, the run ends if the
    // listing does, and otherwise continues with, and ends as, the next page's run
    ensures fetched.Ok? && HandlePage(fetched.value, now, isoOf, api).outcome.Ok? && fetched.value.next.None? ==>
      t == Trace([FetchPage] + HandlePage(fetched.value, now, isoOf, api).requests, Ok(()))
    ensures fetched.Ok? && HandlePage(fetched.value, now, isoOf, api).outcome.Ok? && fetched.value.next.Some? ==>
      var rest := Run(fetched.value.next.value, now, isoOf, api);
      t.requests == [FetchPage] + HandlePage(fetched.value, now, isoOf, api).requests + rest.requests
      && t.outcome == rest.outcome
    decreases fetched
  {
    match fetched
    case Err(e) => Trace([FetchPage], Err(e))
    case Ok(page) =>
      var h := HandlePage(page, now, isoOf, api);
      var head := [FetchPage] + h.requests;
      if h.outcome.Err? then Trace(head, h.outcome)
      else match page.next
        case None => Trace(head, Ok(()))
        case Some(n) =>
          var rest := Run(n, now, isoOf, api);
          Trace(head + rest.requests, rest.outcome)
  }

  /** Every page of the listing was delivered. */
  ghost predicate Delivered(fetched: Result<Page>)
    decreases fetched
  {
    match fetched
    case Err(_) => false
    case Ok(page) => page.next.Some? ==> Delivered(page.next.value)
  }

  /** The pages of a delivered listing, in order. */
  ghost function Pages(fetched: Result<Page>): (ps: seq<Page>)
    requires Delivered(fetched)
    ensures |ps| >= 1 && ps[0] == fetched.value
    decreases fetched
  {
    var page := fetched.value;
    match page.next
    case None => [page]
    case Some(n) => [page] + Pages(n)
  }

  /** The reference iteration: the pages in order, each fetched and then
      fully handled before the next, stopping at the first failing page. */
  function Sequentially(pages: seq<Page>, now: int, isoOf: int -> string, api: Api): (t: Trace)
    ensures |pages| == 0 ==> t == Trace([], Ok(()))
  {
    if |pages| == 0 then Trace([], Ok(()))
    else
      var h := HandlePage(pages[0], now, isoOf, api);
      if h.outcome.Err? then Trace([FetchPage] + h.requests, h.outcome)
      else
        var rest := Sequentially(pages[1..], now, isoOf, api);
        Trace([FetchPage] + h.requests + rest.requests, rest.outcome)
  }

  /** Over a delivered listing, `run` is the in-order iteration over its
      pages: page k + 1 is requested only after page k's candidates were all
      handled, and the loop ends after the page without a successor. */
  lemma {:induction false} RunIsSequential(fetched: Result<Page>, now: int, isoOf: int -> string, api: Api)
    requires Delivered(fetched)
    ensures Run(fetched, now, isoOf, api) == Sequentially(Pages(fetched), now, isoOf, api)
    decreases fetched
  {
    var page := fetched.value;
    var ps := Pages(fetched);
    var h := HandlePage(page, now, isoOf, api);
    match page.next
    case None =>
      assert ps == [page];
      assert ps[1..] == [];
    case Some(n) =>
      assert ps[0] == page && ps[1..] == Pages(n);
      if h.outcome.Ok? {
        RunIsSequential(n, now, isoOf, api);
        var rest := Run(n, now, isoOf, api);
        assert Sequentially(ps, now, isoOf, api) == Trace([FetchPage] + h.requests + rest.requests, rest.outcome);
      }
  }

  /** Every page of the listing arrived and `ok` holds of each. */
  ghost predicate AllPages(fetched: Result<Page>, ok: Page -> bool) {
    Delivered(fetched) && forall k :: 0 <= k < |Pages(fetched)| ==> ok(Pages(fetched)[k])
  }

  /** Whether a page's candidates all succeeded. */
  function PageSucceeds(now: int, isoOf: int -> string, api: Api): Page -> bool {
    page => HandlePage(page, now, isoOf, api).outcome.Ok?
  }

  /** `run` resolves exactly when every page fetch and every candidate
      succeeded: a failed fetch of any page, the first or a later one, and a
      failed candidate on any page, reject the whole run. */
  lemma {:induction false} RunSucceedsIff(fetched: Result<Page>, now: int, isoOf: int -> string, api: Api)
    ensures Run(fetched, now, isoOf, api).outcome.Ok? <==> AllPages(fetched, PageSucceeds(now, isoOf, api))
    decreases fetched
  {
    if fetched.Ok? {
      var page := fetched.value;
      RunStep(page, now, isoOf, api);
      PagesStep(page, PageSucceeds(now, isoOf, api));
      if page.next.Some? && HandlePage(page, now, isoOf, api).outcome.Ok? {
        RunSucceedsIff(page.next.value, now, isoOf, api);
      }
    }
  }

  /** One page of `run`: it resolves when the page's candidates did and the
      rest of the listing, if any, resolves. */
  lemma RunStep(page: Page, now: int, isoOf: int -> string, api: Api)
    ensures Run(Ok(page), now, isoOf, api).outcome.Ok? <==>
      && PageSucceeds(now, isoOf, api)(page)
      && (page.next.Some? ==> Run(page.next.value, now, isoOf, api).outcome.Ok?)
  {
  }

  lemma PagesStep(page: Page, ok: Page -> bool)
    ensures AllPages(Ok(page), ok) <==> ok(page) && (page.next.Some? ==> AllPages(page.next.value, ok))
  {
    var fetched := Ok(page);
    if Delivered(fetched) {
      var ps := Pages(fetched);
      assert ps[0] == page;
      if page.next.Some? {
        var n := page.next.value;
        var rest := Pages(n);
        assert ps == [page] + rest;
        assert forall k :: 1 <= k < |ps| ==> ps[k] == rest[k - 1];
        assert forall j :: 0 <= j < |rest| ==> rest[j] == ps[j + 1];
      } else {
        assert ps == [page];
      }
    }
  }

  /** The two-status scenario: a failure of check `ci` followed by a later
      success leaves a mergeable single-commit pull request merged. */
  lemma LaterSuccessMerges(pr: PullRequest, api: Api, t1: string, t2: string)
    requires pr.mergeable && Before(t1, t2)
    requires api.statuses(pr.statusesUrl) == Ok([Status("ci", "failure", t1), Status("ci", "success", t2)])
    requires api.commits(pr.commitsUrl).Ok? && |api.commits(pr.commitsUrl).value| == 1
    ensures PutMerge(MergeRequestFor(pr, api.commits(pr.commitsUrl).value[0])) in HandlePullRequest(pr, api).requests
  {
    LaterSuccessSupersedes("ci", t1, t2);
    MergeRequestedIff(pr, api);
  }
}

=== FILE: contents.dfy ===
/** Reading a file of a repository through the hosting API's contents
    endpoint: `getContent` and `tryGetContent` of node-release.js. */
module Contents {
  import opened Outcomes

  /** The answer of one API read: a body, or a failure with its status code.
      A transport failure without a status is represented by a code other
      than 404. */
  datatype Reply<+T> = Reply(body: T) | Failed(statusCode: int)

  /** The fields of a contents response that `getContent` inspects; `content`
      is `None` when the field is not a string. */
  datatype ContentBody = ContentBody(kind: string, content: Option<string>, encoding: string)

  /** What `tryGetContent` resolves to: `{exists: true, content}` or
      `{exists: false}`. */
  datatype FileFetch = Present(content: string) | Absent

  /** `new Buffer(content, encoding).toString('utf8')`, left abstract. */
  type Decoder = (string, string) -> string

  /** The messages of the two assertions of `getContent`. */
  const NotAFile: string := "Expected result.type to be a file"
  const NotAString: string := "Expected result.content to be a string. This validation is security critical."

  /** `getContent`: the body is trusted only when it describes a file whose
      content is a string; anything else is an assertion failure, and a failed
      read rejects with its status. */
  function GetContent(reply: Reply<ContentBody>, decode: Decoder): (r: Result<string>)
    ensures r.Ok? <==> reply.Reply? && reply.body.kind == "file" && reply.body.content.Some?
    ensures r.Ok? ==> r.value == decode(reply.body.content.value, reply.body.encoding)
    ensures reply.Failed? ==> r == Err(HttpError(reply.statusCode))
    ensures reply.Reply? && r.Err? ==> r.error.AssertionError?
  {
    match reply
    case Failed(code) => Err(HttpError(code))
    case Reply(body) =>
      if body.kind != "file" then Err(AssertionError(NotAFile))
      else if body.content.None? then
        Err(AssertionError(NotAString))
      else Ok(decode(body.content.value, body.encoding))
  }

  /** `tryGetContent`: a 404 of `getContent` becomes an absent file, every
      other rejection (including the assertions) propagates. */
  function TryGetContent(reply: Reply<ContentBody>, decode: Decoder): (r: Result<FileFetch>)
    ensures forall c :: r == Ok(Present(c)) <==> GetContent(reply, decode) == Ok(c)
    ensures r == Ok(Absent) <==> GetContent(reply, decode) == Err(HttpError(404))
    ensures forall e :: r == Err(e) <==> GetContent(reply, decode) == Err(e) && e != HttpError(404)
  {
    match GetContent(reply, decode)
    case Ok(c) => Ok(Present(c))
    case Err(e) => if e.HttpError? && e.statusCode == 404 then Ok(Absent) else Err(e)
  }
}

=== FILE: node_release.dfy ===
/** The node-release bot: decides per repository whether the pinned node
    version needs bumping, generates the edited configuration files, and
    builds (and, outside dry-run, executes) the branch / commit / pull-request
    call plan. */
module NodeRelease {
  import opened Outcomes
  import opened Versions
  import opened Substitution
  import opened Contents
  import opened Sequences

  /** A JavaScript value read from `package.json` as `engines.node`. For a
      value that is neither a string nor null, `key` is its property-key form
      (`String(value)`), which is what indexing `isLTS` with it uses. */
  datatype JsValue = JsString(s: string) | JsNull | JsOther(key: string)

  /** `value === target`, where a missing target is `null`. */
  predicate StrictEquals(value: JsValue, target: Option<string>) {
    match value
    case JsString(s) => target == Some(s)
    case JsNull => target.None?
    case JsOther(_) => false
  }

  function PropertyKey(value: JsValue): string {
    match value
    case JsString(s) => s
    case JsNull => "null"
    case JsOther(k) => k
  }

  /** `'' + target`: a missing target prints as `null`. */
  function Show(target: Option<string>): string {
    match target
    case Some(s) => s
    case None => "null"
  }

  datatype Mode = Stable | Lts | StableCircle | LtsCircle {
    predicate OnLtsTrack() { this == Lts || this == LtsCircle }
    predicate OnCircle() { this == StableCircle || this == LtsCircle }
  }

  /** `version[mode]`. */
  function Target(v: VersionInfo, m: Mode): Option<string> {
    match m
    case Stable => v.stable
    case Lts => v.lts
    case StableCircle => v.stableCircle
    case LtsCircle => v.ltsCircle
  }

  /** `'node-' + version[mode]`. */
  function BranchName(v: VersionInfo, m: Mode): string {
    "node-" + Show(Target(v, m))
  }

  /** The library calls node-release.js makes on file text, left abstract:
      base64 decoding, and `JSON.parse(text).engines.node`, which rejects
      when the text is not JSON or has no `engines` object. */
  datatype Codec = Codec(decode: Decoder, enginesNode: string -> Result<JsValue>)

  datatype BranchBody = BranchBody(name: string)

  /** What the hosting API answers about one repository: `files` for the
      reads of `needsUpdate`, `refetched` for the second round of reads that
      `updateRepo` issues once an update is due. */
  datatype Repo = Repo(
    owner: string,
    name: string,
    files: string -> Reply<ContentBody>,
    refetched: string -> Reply<ContentBody>,
    branches: string -> Reply<BranchBody>)

  /** The mode of `needsUpdate`: stay on the LTS track when `isLTS` holds a
      truthy entry for the pinned version, and restrict to CircleCI images when
      the repository has `.circleci/config.yml`. */
  function ChooseMode(v: VersionInfo, pinned: JsValue, circle2: bool): (m: Mode)
    ensures m.OnLtsTrack() <==> PropertyKey(pinned) in v.isLts && v.isLts[PropertyKey(pinned)]
    ensures m.OnCircle() <==> circle2
  {
    var lts := PropertyKey(pinned) in v.isLts && v.isLts[PropertyKey(pinned)];
    if lts then (if circle2 then LtsCircle else Lts)
    else (if circle2 then StableCircle else Stable)
  }

  /** The concurrent reads at the start of `needsUpdate`: `package.json`
      (required), `.circleci/config.yml` (optional), then the pinned
      `engines.node`. Of two failed reads the `package.json` one is reported. */
  function ReadPinned(repo: Repo, codec: Codec): (r: Result<(JsValue, bool)>)
    // the pin is read exactly when both reads and the parse succeed
    ensures var pkg := GetContent(repo.files("package.json"), codec.decode);
      var circle2 := TryGetContent(repo.files(".circleci/config.yml"), codec.decode);
      r.Ok? <==> pkg.Ok? && circle2.Ok? && codec.enginesNode(pkg.value).Ok?
    ensures r.Ok? ==> GetContent(repo.files("package.json"), codec.decode).Ok?
    ensures r.Ok? ==> codec.enginesNode(GetContent(repo.files("package.json"), codec.decode).value) == Ok(r.value.0)
    ensures r.Ok? ==> TryGetContent(repo.files(".circleci/config.yml"), codec.decode).Ok?
    ensures r.Ok? ==> (r.value.1 <==> TryGetContent(repo.files(".circleci/config.yml"), codec.decode).value.Present?)
    // a failed read rejects with its error, package.json first
    ensures GetContent(repo.files("package.json"), codec.decode).Err? ==>
      r == Err(GetContent(repo.files("package.json"), codec.decode).error)
    ensures (GetContent(repo.files("package.json"), codec.decode).Ok?
             && TryGetContent(repo.files(".circleci/config.yml"), codec.decode).Err?) ==>
      r == Err(TryGetContent(repo.files(".circleci/config.yml"), codec.decode).error)
  {
    var pkg :- GetContent(repo.files("package.json"), codec.decode);
    var circle2 :- TryGetContent(repo.files(".circleci/config.yml"), codec.decode);
    var pinned :- codec.enginesNode(pkg);
    Ok((pinned, circle2.Present?))
  }

  /** The pinned version already is the resolved LTS or stable version. */
  predicate UpToDate(pinned: JsValue, v: VersionInfo) {
    StrictEquals(pinned, v.lts) || StrictEquals(pinned, v.stable)
  }

  /** `needsUpdate`: `None` for `false`, `Some(mode)` when an update is due.
      An up-to-date pin answers `false` before any branch is looked up; an
      existing `node-<target>` branch answers `false`; a 404 for it answers
      the mode; any other failure rejects. */
  function NeedsUpdate(repo: Repo, v: VersionInfo, codec: Codec): (r: Result<Option<Mode>>)
    ensures ReadPinned(repo, codec).Err? ==> r == Err(ReadPinned(repo, codec).error)
    ensures ReadPinned(repo, codec).Ok? && UpToDate(ReadPinned(repo, codec).value.0, v) ==> r == Ok(None)
    ensures ReadPinned(repo, codec).Ok? && !UpToDate(ReadPinned(repo, codec).value.0, v) ==>
      var (pinned, circle2) := ReadPinned(repo, codec).value;
      var mode := ChooseMode(v, pinned, circle2);
      var lookup := repo.branches(BranchName(v, mode));
      && (lookup == Reply(BranchBody(BranchName(v, mode))) ==> r == Ok(None))
      // a reply naming another branch fails the `b.name === branch` assertion
      && (lookup.Reply? && lookup.body.name != BranchName(v, mode) ==> r == Err(AssertionError("")))
      && (lookup == Failed(404) ==> r == Ok(Some(mode)))
      && (lookup.Failed? && lookup.statusCode != 404 ==> r == Err(HttpError(lookup.statusCode)))
    ensures r.Ok? && r.value.Some? ==> repo.branches(BranchName(v, r.value.value)) == Failed(404)
  {
    var (pinned, circle2) :- ReadPinned(repo, codec);
    if UpToDate(pinned, v) then Ok(None)
    else
      var mode := ChooseMode(v, pinned, circle2);
      var branch := BranchName(v, mode);
      match repo.branches(branch)
      case Reply(b) => if b.name == branch then Ok(None) else Err(AssertionError(""))
      case Failed(code) => if code == 404 then Ok(Some(mode)) else Err(HttpError(code))
  }

  /** When the pin is up to date the branches of the repository play no part
      in the answer. */
  lemma UpToDateIgnoresBranches(repo: Repo, v: VersionInfo, codec: Codec, other: string -> Reply<BranchBody>)
    requires ReadPinned(repo, codec).Ok? && UpToDate(ReadPinned(repo, codec).value.0, v)
    ensures NeedsUpdate(repo, v, codec) == NeedsUpdate(repo.(branches := other), v, codec) == Ok(None)
  {
    assert ReadPinned(repo.(branches := other), codec) == ReadPinned(repo, codec);
  }

  /** The five substitutions of `updateRepo`, as prefix and suffix around the
      version of each regular expression. */
  const PackagePattern := Pattern("\"node\": \"", "\"")
  const TravisListPattern := Pattern("node_js:\n  - \"", "\"")
  const TravisScalarPattern := Pattern("node_js: ", "")
  const CirclePattern := Pattern("node:\n    version: ", "")
  const Circle2Pattern := Pattern("node:", "")

  datatype FileUpdate = FileUpdate(path: string, content: string)

  /** The messages of the assertions of `updateRepo` on its patches. */
  const PackageNotEdited: string := "Expected package.json to be edited"
  const PackageNotUpdated: string := "Expected package.json to be updated to current version"
  const TravisNotEdited: string := "Expected .travis.yml to be edited"

  /** One substitution followed by `assert(old !== new, message)`. */
  function Edit(text: string, p: Pattern, target: string, message: string): (r: Result<string>)
    // for a version target, the edit succeeds exactly when some match of the
    // pattern names another version
    ensures WellFormed(p) && Versions.IsTriple(target) ==> (r.Ok? <==> !AllTokensAre(text, 0, p, target))
    ensures r.Ok? <==> ReplaceAll(text, p, target) != text
    ensures r.Ok? ==> r.value == ReplaceAll(text, p, target) && r.value != text
    ensures r.Err? ==> r.error == AssertionError(message)
  {
    var edited := ReplaceAll(text, p, target);
    assert WellFormed(p) && Versions.IsTriple(target) ==> (edited == text <==> AllTokensAre(text, 0, p, target)) by {
      if WellFormed(p) && Versions.IsTriple(target) {
        ScanUnchangedIff(text, 0, p, target);
        assert text[0..] == text;
      }
    }
    if edited == text then Err(AssertionError(message)) else Ok(edited)
  }

  /** The paths `updateRepo` commits: `package.json` always, then each CI
      configuration that exists, in this order. */
  function ExpectedPaths(travis: FileFetch, circle: FileFetch, circle2: FileFetch): seq<string> {
    ["package.json"]
    + (if travis.Present? then [".travis.yml"] else [])
    + (if circle.Present? then ["circle.yml"] else [])
    + (if circle2.Present? then [".circleci/config.yml"] else [])
  }

  /** The texts the files of `ExpectedPaths` had before the update, in the
      same order. */
  function OriginalTexts(pkg: string, travis: FileFetch, circle: FileFetch, circle2: FileFetch): seq<string> {
    [pkg] + TextOf(travis) + TextOf(circle) + TextOf(circle2)
  }

  function TextOf(file: FileFetch): seq<string> {
    if file.Present? then [file.content] else []
  }

  function Paths(us: seq<FileUpdate>): (ps: seq<string>)
    ensures |ps| == |us|
    ensures forall k :: 0 <= k < |us| ==> ps[k] == us[k].path
  {
    if |us| == 0 then [] else [us[0].path] + Paths(us[1..])
  }

  /** An optional file's update, if it exists. */
  function OptionalUpdate(path: string, file: FileFetch, p: Pattern, target: string): (r: Result<seq<FileUpdate>>)
    ensures file.Absent? ==> r == Ok([])
    ensures r.Ok? && file.Present? ==> r.value == [FileUpdate(path, ReplaceAll(file.content, p, target))]
    ensures r.Ok? && file.Present? ==> r.value[0].content != file.content
    ensures file.Present? ==> (r.Ok? <==> ReplaceAll(file.content, p, target) != file.content)
    ensures file.Present? && WellFormed(p) && Versions.IsTriple(target) ==>
      (r.Ok? <==> !AllTokensAre(file.content, 0, p, target))
    ensures r.Err? ==> r.error == AssertionError("Expected " + path + " to be edited")
  {
    match file
    case Absent => Ok([])
    case Present(text) =>
      var edited :- Edit(text, p, target, "Expected " + path + " to be edited");
      Ok([FileUpdate(path, edited)])
  }

  /** `.travis.yml` takes two substitutions in a row, each of which must change
      the text. */
  function TravisUpdate(file: FileFetch, target: string): (r: Result<seq<FileUpdate>>)
    ensures file.Absent? ==> r == Ok([])
    ensures file.Present? ==>
      var a := ReplaceAll(file.content, TravisListPattern, target);
      var b := ReplaceAll(a, TravisScalarPattern, target);
      && (r.Ok? <==> a != file.content && b != a)
      && (r.Ok? ==> r.value == [FileUpdate(".travis.yml", b)])
  {
    match file
    case Absent => Ok([])
    case Present(text) =>
      var a :- Edit(text, TravisListPattern, target, TravisNotEdited);
      var b :- Edit(a, TravisScalarPattern, target, TravisNotEdited);
      Ok([FileUpdate(".travis.yml", b)])
  }

  /** The shape of one optional file's contribution to the update list. */
  predicate Contribution(us: seq<FileUpdate>, path: string, file: FileFetch, mustDiffer: bool) {
    match file
    case Absent => us == []
    case Present(text) => |us| == 1 && us[0].path == path && (mustDiffer ==> us[0].content != text)
  }

  lemma Assembled(pkgUpdate: FileUpdate, tr: seq<FileUpdate>, ci: seq<FileUpdate>, ci2: seq<FileUpdate>,
                  pkg: string, travis: FileFetch, circle: FileFetch, circle2: FileFetch)
    requires pkgUpdate.path == "package.json" && pkgUpdate.content != pkg
    requires Contribution(tr, ".travis.yml", travis, false)
    requires Contribution(ci, "circle.yml", circle, true)
    requires Contribution(ci2, ".circleci/config.yml", circle2, true)
    ensures var us := [pkgUpdate] + tr + ci + ci2;
      && Paths(us) == ExpectedPaths(travis, circle, circle2)
      && |us| == |OriginalTexts(pkg, travis, circle, circle2)|
      && forall k :: 0 <= k < |us| && us[k].path != ".travis.yml" ==> us[k].content != OriginalTexts(pkg, travis, circle, circle2)[k]
  {
    var us := [pkgUpdate] + tr + ci + ci2;
    assert Paths(us) == ExpectedPaths(travis, circle, circle2) by {
      PathsAppend([pkgUpdate] + tr + ci, ci2);
      PathsAppend([pkgUpdate] + tr, ci);
      PathsAppend([pkgUpdate], tr);
    }
    assert Differs(us, OriginalTexts(pkg, travis, circle, circle2)) by {
      assert Differs([pkgUpdate], [pkg]);
      assert Differs(tr, TextOf(travis));
      assert Differs(ci, TextOf(circle));
      assert Differs(ci2, TextOf(circle2));
      DiffersAppend([pkgUpdate], [pkg], tr, TextOf(travis));
      DiffersAppend([pkgUpdate] + tr, [pkg] + TextOf(travis), ci, TextOf(circle));
      DiffersAppend([pkgUpdate] + tr + ci, [pkg] + TextOf(travis) + TextOf(circle), ci2, TextOf(circle2));
    }
  }

  /** Each update, `.travis.yml`'s aside, changes the text at its position. */
  predicate Differs(us: seq<FileUpdate>, orig: seq<string>) {
    |us| == |orig| && forall k :: 0 <= k < |us| && us[k].path != ".travis.yml" ==> us[k].content != orig[k]
  }

  lemma DiffersAppend(us1: seq<FileUpdate>, o1: seq<string>, us2: seq<FileUpdate>, o2: seq<string>)
    requires Differs(us1, o1) && Differs(us2, o2)
    ensures Differs(us1 + us2, o1 + o2)
  {
    forall k | 0 <= k < |us1| + |us2| && (us1 + us2)[k].path != ".travis.yml"
      ensures (us1 + us2)[k].content != (o1 + o2)[k]
    {
      if k >= |us1| {
        assert (us1 + us2)[k] == us2[k - |us1|] && (o1 + o2)[k] == o2[k - |us1|];
      }
    }
  }

  lemma {:induction false} PathsAppend(a: seq<FileUpdate>, b: seq<FileUpdate>)
    ensures Paths(a + b) == Paths(a) + Paths(b)
  {
    assert forall k :: 0 <= k < |a| + |b| ==> (a + b)[k].path == (Paths(a) + Paths(b))[k];
  }

  /** The update list of `updateRepo`: every substitution must change its
      text, and `package.json` must then parse to the target. */
  function BuildUpdates(pkg: string, travis: FileFetch, circle: FileFetch, circle2: FileFetch,
                        target: Option<string>, codec: Codec): (r: Result<seq<FileUpdate>>)
    // the update succeeds exactly when every step does
    ensures var t := Show(target);
      var newPkg := ReplaceAll(pkg, PackagePattern, t);
      r.Ok? <==>
        && newPkg != pkg
        && codec.enginesNode(newPkg).Ok? && StrictEquals(codec.enginesNode(newPkg).value, target)
        && TravisUpdate(travis, t).Ok?
        && OptionalUpdate("circle.yml", circle, CirclePattern, t).Ok?
        && OptionalUpdate(".circleci/config.yml", circle2, Circle2Pattern, t).Ok?
    // and then lists the package.json update, then the CI files' updates
    ensures r.Ok? ==>
      var t := Show(target);
      r.value == [FileUpdate("package.json", ReplaceAll(pkg, PackagePattern, t))]
        + TravisUpdate(travis, t).value
        + OptionalUpdate("circle.yml", circle, CirclePattern, t).value
        + OptionalUpdate(".circleci/config.yml", circle2, Circle2Pattern, t).value
    ensures r.Ok? ==> Paths(r.value) == ExpectedPaths(travis, circle, circle2)
    ensures r.Ok? ==> forall k :: 0 <= k < |r.value| && r.value[k].path != ".travis.yml" ==>
      r.value[k].content != OriginalTexts(pkg, travis, circle, circle2)[k]
    ensures r.Ok? ==> r.value[0] == FileUpdate("package.json", ReplaceAll(pkg, PackagePattern, Show(target)))
    ensures r.Ok? ==> var parsed := codec.enginesNode(r.value[0].content); parsed.Ok? && StrictEquals(parsed.value, target)
    ensures ReplaceAll(pkg, PackagePattern, Show(target)) == pkg ==>
      r == Err(AssertionError(PackageNotEdited))
    ensures var newPkg := ReplaceAll(pkg, PackagePattern, Show(target));
      newPkg != pkg && codec.enginesNode(newPkg).Err? ==> r == Err(codec.enginesNode(newPkg).error)
    ensures var newPkg := ReplaceAll(pkg, PackagePattern, Show(target));
      newPkg != pkg && codec.enginesNode(newPkg).Ok? && !StrictEquals(codec.enginesNode(newPkg).value, target) ==>
      r == Err(AssertionError(PackageNotUpdated))
    ensures circle.Present? && ReplaceAll(circle.content, CirclePattern, Show(target)) == circle.content ==> r.Err?
    ensures circle2.Present? && ReplaceAll(circle2.content, Circle2Pattern, Show(target)) == circle2.content ==> r.Err?
    ensures travis.Present? && ReplaceAll(travis.content, TravisListPattern, Show(target)) == travis.content ==> r.Err?
  {
    var t := Show(target);
    var newPkg :- Edit(pkg, PackagePattern, t, PackageNotEdited);
    var parsed :- codec.enginesNode(newPkg);
    var _ :- Check(StrictEquals(parsed, target), PackageNotUpdated);
    var tr :- TravisUpdate(travis, t);
    var ci :- OptionalUpdate("circle.yml", circle, CirclePattern, t);
    var ci2 :- OptionalUpdate(".circleci/config.yml", circle2, Circle2Pattern, t);
    var us := [FileUpdate("package.json", newPkg)] + tr + ci + ci2;
    Assembled(FileUpdate("package.json", newPkg), tr, ci, ci2, pkg, travis, circle, circle2);
    Ok(us)
  }

  datatype Commit = Commit(branch: string, message: string, updates: seq<FileUpdate>)
  datatype Side = Side(user: string, repo: string, branch: string)
  datatype PullBody = PullBody(title: string, body: string)

  /** One mutating call of the plan, as `{method, args}`. */
  datatype Call =
    | BranchCall(owner: string, repo: string, from: string, branch: string)
    | CommitCall(owner: string, repo: string, commit: Commit)
    | PullCall(head: Side, base: Side, pull: PullBody)

  function Message(target: string): string {
    "Update to node v" + target
  }

  /** The fixed text of the pull request body around the version. */
  const PullIntro: string := "This is an automated pull request to update the version of node.js. You can "
    + "find release notes for what changed in this release at https://nodejs.org/en/blog/release/v"
  const PullOutro: string := "/\n\nIf integration tests pass, this pull request can be safely merged."

  function PullText(target: string): string {
    PullIntro + target + PullOutro
  }

  /** The call plan of `updateRepo`: branch from master, commit, pull request. */
  function Plan(owner: string, repo: string, branch: string, target: string, updates: seq<FileUpdate>): seq<Call> {
    [ BranchCall(owner, repo, "master", branch),
      CommitCall(owner, repo, Commit(branch, Message(target), updates)),
      PullCall(Side(owner, repo, branch), Side(owner, repo, "master"), PullBody(Message(target), PullText(target))) ]
  }

  /** The calls are issued one after the other, each only once the previous
      one succeeded; `performed` lists the calls issued. */
  function Execute(calls: seq<Call>, exec: Call -> Result<()>): (r: (seq<Call>, Result<()>))
    ensures r.1.Ok? <==> forall k :: 0 <= k < |calls| ==> exec(calls[k]).Ok?
    ensures r.1.Ok? ==> r.0 == calls
    ensures r.1.Err? ==> 0 < |r.0| <= |calls| && r.0 == calls[..|r.0|] && exec(r.0[|r.0| - 1]) == Err(r.1.error)
    ensures r.1.Err? ==> forall j :: 0 <= j < |r.0| - 1 ==> exec(calls[j]).Ok?
  {
    if |calls| == 0 then ([], Ok(()))
    else match exec(calls[0])
      case Err(e) => ([calls[0]], Err(e))
      case Ok(_) =>
        var (done, res) := Execute(calls[1..], exec);
        assert forall k :: 1 <= k < |calls| ==> calls[1..][k - 1] == calls[k];
        assert res.Err? ==> [calls[0]] + done == calls[..|done| + 1];
        assert res.Ok? ==> [calls[0]] + done == calls;
        ([calls[0]] + done, res)
  }

  /** What one repository's run produced: the mutating calls actually issued,
      and what the promise of `updateRepo` settles to. */
  datatype RepoRun = RepoRun(performed: seq<Call>, result: Result<seq<Call>>)

  /** An update that is due, with the edited files. */
  datatype Pending = Pending(mode: Mode, updates: seq<FileUpdate>)

  /** The files `updateRepo` reads again once an update is due. */
  datatype Sources = Sources(pkg: string, travis: FileFetch, circle: FileFetch, circle2: FileFetch)

  /** The concurrent reads of `updateRepo`; of several failures the first in
      this order is reported. */
  function Refetch(repo: Repo, codec: Codec): (r: Result<Sources>)
    ensures r.Ok? <==>
      && GetContent(repo.refetched("package.json"), codec.decode).Ok?
      && TryGetContent(repo.refetched(".travis.yml"), codec.decode).Ok?
      && TryGetContent(repo.refetched("circle.yml"), codec.decode).Ok?
      && TryGetContent(repo.refetched(".circleci/config.yml"), codec.decode).Ok?
    ensures r.Ok? ==> r.value == Sources(
      GetContent(repo.refetched("package.json"), codec.decode).value,
      TryGetContent(repo.refetched(".travis.yml"), codec.decode).value,
      TryGetContent(repo.refetched("circle.yml"), codec.decode).value,
      TryGetContent(repo.refetched(".circleci/config.yml"), codec.decode).value)
  {
    var pkg :- GetContent(repo.refetched("package.json"), codec.decode);
    var travis :- TryGetContent(repo.refetched(".travis.yml"), codec.decode);
    var circle :- TryGetContent(repo.refetched("circle.yml"), codec.decode);
    var circle2 :- TryGetContent(repo.refetched(".circleci/config.yml"), codec.decode);
    Ok(Sources(pkg, travis, circle, circle2))
  }

  /** The update list for the sources at hand and the target of `mode`. */
  function Patch(src: Sources, v: VersionInfo, mode: Mode, codec: Codec): Result<seq<FileUpdate>> {
    BuildUpdates(src.pkg, src.travis, src.circle, src.circle2, Target(v, mode), codec)
  }

  /** `updateRepo` up to and including patch generation: `None` when no
      update is due. */
  function Prepare(repo: Repo, v: VersionInfo, codec: Codec): (r: Result<Option<Pending>>)
    ensures NeedsUpdate(repo, v, codec) == Ok(None) ==> r == Ok(None)
    ensures NeedsUpdate(repo, v, codec).Err? ==> r == Err(NeedsUpdate(repo, v, codec).error)
    // when an update is due, it is pending exactly when the reads and the
    // patches succeed, and otherwise the run rejects with their failure
    ensures NeedsUpdate(repo, v, codec).Ok? && NeedsUpdate(repo, v, codec).value.Some? ==>
      var mode := NeedsUpdate(repo, v, codec).value.value;
      var src := Refetch(repo, codec);
      && (src.Err? ==> r == Err(src.error))
      && (src.Ok? && Patch(src.value, v, mode, codec).Ok? ==> r == Ok(Some(Pending(mode, Patch(src.value, v, mode, codec).value))))
      && (src.Ok? && Patch(src.value, v, mode, codec).Err? ==> r == Err(Patch(src.value, v, mode, codec).error))
    ensures r.Ok? && r.value.Some? ==> NeedsUpdate(repo, v, codec) == Ok(Some(r.value.value.mode))
    ensures r.Ok? && r.value.Some? ==> |r.value.value.updates| > 0 && r.value.value.updates[0].path == "package.json"
  {
    var mode :- NeedsUpdate(repo, v, codec);
    if mode.None? then Ok(None)
    else
      var src :- Refetch(repo, codec);
      var updates :- Patch(src, v, mode.value, codec);
      assert Paths(updates)[0] == "package.json";
      Ok(Some(Pending(mode.value, updates)))
  }

  /** The plan `updateRepo` builds for a pending update. */
  predicate IsUpdatePlan(plan: seq<Call>, repo: Repo, v: VersionInfo, p: Pending) {
    var branch := "node-" + Show(Target(v, p.mode));
    var message := "Update to node v" + Show(Target(v, p.mode));
    && |plan| == 3
    && plan[0] == BranchCall(repo.owner, repo.name, "master", branch)
    && plan[1].CommitCall? && plan[1].owner == repo.owner && plan[1].repo == repo.name
    && plan[1].commit == Commit(branch, message, p.updates)
    && plan[2].PullCall? && plan[2].head == Side(repo.owner, repo.name, branch)
    && plan[2].base == Side(repo.owner, repo.name, "master") && plan[2].pull.title == message
    && plan[2].pull.body == PullText(Show(Target(v, p.mode)))
  }

  /** The plan for a pending update. */
  function PlanFor(repo: Repo, v: VersionInfo, p: Pending): (plan: seq<Call>)
    ensures IsUpdatePlan(plan, repo, v, p)
  {
    Plan(repo.owner, repo.name, BranchName(v, p.mode), Show(Target(v, p.mode)), p.updates)
  }

  /** `updateRepo`, with the branch named `'node-' + version[mode]` (see
      `UpdateRepoAsWritten` for the code as it stands). An empty plan when no
      update is due; otherwise the three-call plan, returned unexecuted in a
      dry run and executed in order otherwise. */
  function UpdateRepo(repo: Repo, v: VersionInfo, codec: Codec, dryRun: bool, exec: Call -> Result<()>): (r: RepoRun)
    ensures Prepare(repo, v, codec) == Ok(None) ==> r == RepoRun([], Ok([]))
    ensures Prepare(repo, v, codec).Err? ==> r == RepoRun([], Err(Prepare(repo, v, codec).error))
    ensures Prepare(repo, v, codec).Ok? && Prepare(repo, v, codec).value.Some? ==>
      var p := Prepare(repo, v, codec).value.value;
      r.result.Ok? ==> IsUpdatePlan(r.result.value, repo, v, p)
    ensures dryRun ==> r.performed == []
    ensures dryRun && Prepare(repo, v, codec).Ok? ==> r.result.Ok?
    ensures !dryRun && r.result.Ok? ==> r.performed == r.result.value
    ensures !dryRun && r.result.Err? && Prepare(repo, v, codec).Ok? ==> 0 < |r.performed| <= 3
    // a pending update's plan is returned by a dry run; a real run succeeds
    // exactly when every call does, and a failed one issued the plan's first calls
    ensures Prepare(repo, v, codec).Ok? && Prepare(repo, v, codec).value.Some? ==>
      var plan := PlanFor(repo, v, Prepare(repo, v, codec).value.value);
      && (dryRun ==> r == RepoRun([], Ok(plan)))
      && (!dryRun ==> (r.result.Ok? <==> forall k :: 0 <= k < |plan| ==> exec(plan[k]).Ok?))
      && (!dryRun && r.result.Err? ==> r.performed == plan[..|r.performed|])
  {
    Finish(repo, v, Prepare(repo, v, codec), dryRun, exec)
  }

  /** `updateRepo` once `needsUpdate` and patch generation have settled. */
  function Finish(repo: Repo, v: VersionInfo, prepared: Result<Option<Pending>>, dryRun: bool,
                  exec: Call -> Result<()>): (r: RepoRun)
    ensures prepared == Ok(None) ==> r == RepoRun([], Ok([]))
    ensures prepared.Err? ==> r == RepoRun([], Err(prepared.error))
    ensures prepared.Ok? && prepared.value.Some? && r.result.Ok? ==> IsUpdatePlan(r.result.value, repo, v, prepared.value.value)
    ensures dryRun ==> r.performed == []
    ensures dryRun && prepared.Ok? ==> r.result.Ok?
    ensures !dryRun && r.result.Ok? ==> r.performed == r.result.value
    ensures !dryRun && r.result.Err? && prepared.Ok? ==> 0 < |r.performed| <= 3
    ensures prepared.Ok? && prepared.value.Some? ==>
      var plan := PlanFor(repo, v, prepared.value.value);
      && (dryRun ==> r == RepoRun([], Ok(plan)))
      && (!dryRun ==> (r.result.Ok? <==> forall k :: 0 <= k < |plan| ==> exec(plan[k]).Ok?))
      && (!dryRun && r.result.Err? ==> r.performed == plan[..|r.performed|])
  {
    match prepared
    case Err(e) => RepoRun([], Err(e))
    case Ok(None) => RepoRun([], Ok([]))
    case Ok(Some(p)) => Perform(PlanFor(repo, v, p), dryRun, exec)
  }

  /** The end of `updateRepo`: a dry run returns the plan without issuing a
      call; otherwise the calls are issued in order and the plan is returned
      once all of them succeeded. */
  function Perform(plan: seq<Call>, dryRun: bool, exec: Call -> Result<()>): (r: RepoRun)
    ensures dryRun ==> r == RepoRun([], Ok(plan))
    ensures !dryRun ==> (r.result.Ok? <==> forall k :: 0 <= k < |plan| ==> exec(plan[k]).Ok?)
    ensures !dryRun && r.result.Ok? ==> r.performed == plan && r.result.value == plan
    ensures !dryRun && r.result.Err? ==> 0 < |r.performed| <= |plan| && r.performed == plan[..|r.performed|]
  {
    if dryRun then RepoRun([], Ok(plan))
    else
      var (done, res) := Execute(plan, exec);
      RepoRun(done, if res.Ok? then Ok(plan) else Err(res.error))
  }

  /** A dry run returns exactly the plan a real run executes, when every call
      of it succeeds. */
  lemma DryRunEquivalence(repo: Repo, v: VersionInfo, codec: Codec, exec: Call -> Result<()>)
    requires forall c :: exec(c).Ok?
    ensures UpdateRepo(repo, v, codec, false, exec).result == UpdateRepo(repo, v, codec, true, exec).result
    ensures UpdateRepo(repo, v, codec, true, exec).result.Ok? ==>
      UpdateRepo(repo, v, codec, false, exec).performed == UpdateRepo(repo, v, codec, true, exec).result.value
  {
    var pr := Prepare(repo, v, codec);
    if pr.Ok? && pr.value.Some? {
      var p := pr.value.value;
      PerformDryRun(PlanFor(repo, v, p), exec);
    }
  }

  lemma PerformDryRun(plan: seq<Call>, exec: Call -> Result<()>)
    requires forall c :: exec(c).Ok?
    ensures Perform(plan, false, exec) == Perform(plan, true, exec).(performed := plan)
  {
  }

  /** `updateRepo` as written: `branch` is read at node-release.js:166 but is
      bound only inside `needsUpdate`, so building the commit throws a
      `ReferenceError` as soon as an update is due. */
  function UpdateRepoAsWritten(repo: Repo, v: VersionInfo, codec: Codec, dryRun: bool, exec: Call -> Result<()>): (r: RepoRun)
    ensures r.performed == []
    ensures r.result.Ok? ==> r.result.value == []
  {
    match Prepare(repo, v, codec)
    case Err(e) => RepoRun([], Err(e))
    case Ok(None) => RepoRun([], Ok([]))
    case Ok(Some(_)) => RepoRun([], Err(ReferenceError("branch")))
  }

  /** Wherever the corrected run opens a pull request, the run as written
      rejects with the unbound `branch` and issues no call. */
  lemma AsWrittenNeverOpensPullRequest(repo: Repo, v: VersionInfo, codec: Codec, dryRun: bool, exec: Call -> Result<()>)
    requires UpdateRepo(repo, v, codec, dryRun, exec).result.Ok?
    requires UpdateRepo(repo, v, codec, dryRun, exec).result.value != []
    ensures UpdateRepoAsWritten(repo, v, codec, dryRun, exec) == RepoRun([], Err(ReferenceError("branch")))
  {
  }

  /** The two feeds `getNodeVersion` downloads. */
  datatype Feeds = Feeds(releases: seq<Release>, circleTags: seq<string>)

  /** What the bot's entry point produced: every mutating call issued across
      all repositories, and what its promise settles to. */
  datatype BotRun = BotRun(performed: seq<Call>, result: Result<seq<seq<Call>>>)

  /** `Promise.all` over the repository runs: all plans in order, or the first
      rejection (taken in list order). */
  function Join(runs: seq<RepoRun>): (r: Result<seq<seq<Call>>>)
    ensures r.Ok? <==> forall k :: 0 <= k < |runs| ==> runs[k].result.Ok?
    ensures r.Ok? ==> |r.value| == |runs| && forall k :: 0 <= k < |runs| ==> r.value[k] == runs[k].result.value
    ensures r.Err? ==> exists k :: 0 <= k < |runs| && runs[k].result == Err(r.error)
  {
    if |runs| == 0 then Ok([])
    else if runs[0].result.Err? then Err(runs[0].result.error)
    else
      var rest := Join(runs[1..]);
      assert forall k :: 1 <= k < |runs| ==> runs[1..][k - 1] == runs[k];
      if rest.Err? then Err(rest.error) else Ok([runs[0].result.value] + rest.value)
  }

  /** The calls each run issued, repository by repository. */
  function PerformedBy(runs: seq<RepoRun>): (calls: seq<seq<Call>>)
    ensures |calls| == |runs| && forall k :: 0 <= k < |runs| ==> calls[k] == runs[k].performed
  {
    seq(|runs|, k requires 0 <= k < |runs| => runs[k].performed)
  }

  /** The entry point: resolve the versions, then update every repository.
      Calls issued for other repositories stay issued when one rejects. */
  function NodeReleaseBot(feeds: Result<Feeds>, repos: seq<Repo>, codec: Codec, dryRun: bool,
                          exec: Call -> Result<()>): (r: BotRun)
    ensures feeds.Err? ==> r == BotRun([], Err(feeds.error))
    ensures r.result.Ok? ==> |r.result.value| == |repos|
    ensures feeds.Ok? ==>
      var runs := RunAll(repos, Resolve(feeds.value.releases, feeds.value.circleTags), codec, dryRun, exec);
      && (r.result.Ok? <==> forall k :: 0 <= k < |repos| ==> runs[k].result.Ok?)
      && (r.result.Ok? ==> forall k :: 0 <= k < |repos| ==> r.result.value[k] == runs[k].result.value)
      && r.performed == Concat(PerformedBy(runs))
  {
    match feeds
    case Err(e) => BotRun([], Err(e))
    case Ok(f) =>
      var runs := RunAll(repos, Resolve(f.releases, f.circleTags), codec, dryRun, exec);
      BotRun(Concat(PerformedBy(runs)), Join(runs))
  }

  /** A dry run issues no call at all, for any repository. */
  lemma DryRunIssuesNothing(feeds: Result<Feeds>, repos: seq<Repo>, codec: Codec, exec: Call -> Result<()>)
    ensures NodeReleaseBot(feeds, repos, codec, true, exec).performed == []
  {
    if feeds.Ok? {
      var runs := RunAll(repos, Resolve(feeds.value.releases, feeds.value.circleTags), codec, true, exec);
      var calls := PerformedBy(runs);
      assert forall k :: 0 <= k < |calls| ==> calls[k] == runs[k].performed == [];
    }
  }

  /** The runs of `updateRepo` for every repository, against one version
      record. */
  function RunAll(repos: seq<Repo>, v: VersionInfo, codec: Codec, dryRun: bool, exec: Call -> Result<()>): (runs: seq<RepoRun>)
    ensures |runs| == |repos|
    ensures forall k :: 0 <= k < |repos| ==> runs[k] == UpdateRepo(repos[k], v, codec, dryRun, exec)
  {
    seq(|repos|, k requires 0 <= k < |repos| => UpdateRepo(repos[k], v, codec, dryRun, exec))
  }

  /** `needsUpdate` compares the pin only with `lts` and `stable`. A
      repository on CircleCI pinned to exactly its `*_circle` target, with no
      branch for it yet, is judged out of date; its `package.json` then has
      nothing to change and the run rejects at the "Expected package.json to
      be edited" assertion. */
  lemma PinnedToCircleTargetFails(repo: Repo, v: VersionInfo, codec: Codec, dryRun: bool, exec: Call -> Result<()>,
                                  pinned: string, pkg: string)
    requires Versions.IsTriple(pinned)
    requires ReadPinned(repo, codec) == Ok((JsString(pinned), true))
    requires !UpToDate(JsString(pinned), v)
    requires Target(v, ChooseMode(v, JsString(pinned), true)) == Some(pinned)
    requires repo.branches(BranchName(v, ChooseMode(v, JsString(pinned), true))) == Failed(404)
    requires GetContent(repo.refetched("package.json"), codec.decode) == Ok(pkg)
    requires AllTokensAre(pkg, 0, PackagePattern, pinned)
    requires TryGetContent(repo.refetched(".travis.yml"), codec.decode).Ok?
    requires TryGetContent(repo.refetched("circle.yml"), codec.decode).Ok?
    requires TryGetContent(repo.refetched(".circleci/config.yml"), codec.decode).Ok?
    ensures UpdateRepo(repo, v, codec, dryRun, exec) == RepoRun([], Err(AssertionError(PackageNotEdited)))
  {
    ScanUnchangedIff(pkg, 0, PackagePattern, pinned);
    assert ReplaceAll(pkg, PackagePattern, pinned) == pkg;
  }
}

=== FILE: outcomes.dfy ===
/** Failure-compatible wrappers shared by both bots: an optional value, and the
    fulfilled-or-rejected outcome of a promise, with the kinds of rejection the
    bots can produce. */
module Outcomes {

  datatype Option<+T> = None | Some(value: T)

  /** Why a promise was rejected. */
  datatype Error =
    /** A response of the hosting API other than 2xx, with its status code. */
    | HttpError(statusCode: int)
    /** A failed `assert(...)` of the node `assert` module, with its message. */
    | AssertionError(message: string)
    /** Reading an identifier that is not bound in scope. */
    | ReferenceError(name: string)
    /** `JSON.parse` failed or a property of `undefined` was read. */
    | ParseError

  /** The outcome of a promise: fulfilled with a value or rejected with an error. */
  datatype Result<+T> = Ok(value: T) | Err(error: Error) {
    predicate IsFailure() { Err? }

    function PropagateFailure<U>(): Result<U>
      requires Err?
    {
      Err(error)
    }

    function Extract(): T
      requires Ok?
    {
      value
    }
  }

  /** `assert(cond, message)`: passes, or rejects with an assertion error. */
  function Check(cond: bool, message: string): (r: Result<()>)
    ensures r.Ok? <==> cond
    ensures r.Err? ==> r.error == AssertionError(message)
  {
    if cond then Ok(()) else Err(AssertionError(message))
  }
}

=== FILE: paragraphs.dfy ===
/** JavaScript's `String.prototype.split` and `Array.prototype.join` with a
    non-empty literal separator, as used on commit messages with `"\n\n"`. */
module Paragraphs {
  import opened Outcomes

  /** The blank line that separates paragraphs of a commit message. */
  const BlankLine: string := "\n\n"

  predicate OccursAt(s: string, sep: string, k: nat) {
    k + |sep| <= |s| && s[k..k + |sep|] == sep
  }

  /** The leftmost occurrence of `sep` starting at or after `k`. */
  function FirstOccurrence(s: string, sep: string, k: nat): (r: Option<nat>)
    requires k <= |s|
    ensures r.Some? ==> k <= r.value && OccursAt(s, sep, r.value)
    ensures r.Some? ==> forall j :: k <= j < r.value ==> !OccursAt(s, sep, j)
    ensures r.None? ==> forall j :: k <= j <= |s| ==> !OccursAt(s, sep, j)
    decreases |s| - k
  {
    if k + |sep| > |s| then None
    else if OccursAt(s, sep, k) then Some(k)
    else FirstOccurrence(s, sep, k + 1)
  }

  /** `s.split(sep)`: the pieces between leftmost non-overlapping
      occurrences of `sep`; the empty string splits into one empty piece. */
  function Split(s: string, sep: string): (parts: seq<string>)
    requires |sep| > 0
    ensures |parts| >= 1
    decreases |s|
  {
    match FirstOccurrence(s, sep, 0)
    case None => [s]
    case Some(k) => [s[..k]] + Split(s[k + |sep|..], sep)
  }

  /** `parts.join(sep)`; an empty list joins to the empty string. */
  function Join(parts: seq<string>, sep: string): string {
    if |parts| == 0 then ""
    else if |parts| == 1 then parts[0]
    else parts[0] + sep + Join(parts[1..], sep)
  }

  /** Joining the pieces of a split with the same separator gives back the
      original string. */
  lemma {:induction false} JoinSplit(s: string, sep: string)
    requires |sep| > 0
    ensures Join(Split(s, sep), sep) == s
    decreases |s|
  {
    match FirstOccurrence(s, sep, 0)
    case None =>
    case Some(k) =>
      var rest := s[k + |sep|..];
      JoinSplit(rest, sep);
      var parts := Split(s, sep);
      assert parts == [s[..k]] + Split(rest, sep);
      assert parts[1..] == Split(rest, sep);
      assert s == s[..k] + s[k..k + |sep|] + rest;
  }

  /** The first piece is the text before the leftmost occurrence of the
      separator, or the whole string when there is none. */
  lemma FirstPiece(s: string, sep: string)
    requires |sep| > 0
    ensures var p := Split(s, sep)[0];
      && p == s[..|p|]
      && (forall j :: 0 <= j < |p| ==> !OccursAt(s, sep, j))
      && (|Split(s, sep)| == 1 <==> p == s)
      && (|Split(s, sep)| > 1 ==> OccursAt(s, sep, |p|))
  {
    match FirstOccurrence(s, sep, 0)
    case None =>
    case Some(k) =>
      var p := s[..k];
      assert Split(s, sep)[0] == p;
      assert |Split(s, sep)| > 1;
      assert p != s by { assert |p| == k < |s|; }
  }
}

=== FILE: sequences.dfy ===
/** In-order concatenation of lists, as produced by steps run one after the
    other: the calls of one repository after another, the requests of one
    candidate after another. */
module Sequences {

  /** Where list `i` starts in the concatenation: the total length of the
      lists before it. */
  function Offset<T>(xss: seq<seq<T>>, i: nat): nat
    requires i <= |xss|
  {
    if i == 0 then 0 else Offset(xss, i - 1) + |xss[i - 1]|
  }

  /** The lists one after the other. */
  function Concat<T>(xss: seq<seq<T>>): (r: seq<T>)
    ensures |r| == Offset(xss, |xss|)
    ensures (forall i :: 0 <= i < |xss| ==> xss[i] == []) ==> r == []
  {
    if |xss| == 0 then []
    else
      OffsetTail(xss, |xss|);
      assert forall i :: 1 <= i < |xss| ==> xss[1..][i - 1] == xss[i];
      xss[0] + Concat(xss[1..])
  }

  /** List `i` occupies the positions of the concatenation from
      `Offset(xss, i)` on, in its own order. */
  lemma {:induction false} ConcatAt<T>(xss: seq<seq<T>>, i: nat, k: nat)
    requires i < |xss| && k < |xss[i]|
    ensures Offset(xss, i) + k < |Concat(xss)| && Concat(xss)[Offset(xss, i) + k] == xss[i][k]
    decreases i
  {
    var rest := Concat(xss[1..]);
    assert Concat(xss) == xss[0] + rest;
    if i > 0 {
      OffsetTail(xss, i);
      assert xss[1..][i - 1] == xss[i];
      ConcatAt(xss[1..], i - 1, k);
    }
  }

  /** Dropping the first list shifts every offset by its length. */
  lemma {:induction false} OffsetTail<T>(xss: seq<seq<T>>, i: nat)
    requires 1 <= i <= |xss|
    ensures Offset(xss, i) == |xss[0]| + Offset(xss[1..], i - 1)
  {
    if i > 1 {
      OffsetTail(xss, i - 1);
      assert xss[1..][i - 2] == xss[i - 1];
    }
  }
}

=== FILE: statuses.dfy ===
/** The latest-status-wins reduction of the auto-merge bot: per check
    context only the statuses created last count, and a pull request may be
    merged only when there is at least one status and every counted one is a
    success. */
module Statuses {
  import opened Text

  /** One commit status; `createdAt` is the ISO timestamp string, compared
      with JavaScript's string `<`/`>` (`Text.Before`). */
  datatype Status = Status(context: string, state: string, createdAt: string)

  /** No status of the same context was created after `s`. */
  ghost predicate IsLatest(ss: seq<Status>, s: Status) {
    forall j :: 0 <= j < |ss| && ss[j].context == s.context ==> !Before(s.createdAt, ss[j].createdAt)
  }

  ghost predicate HasContext(ss: seq<Status>, c: string) {
    exists i :: 0 <= i < |ss| && ss[i].context == c
  }

  /** `t` is the `createdAt` of some status of context `c`. */
  ghost predicate Attained(ss: seq<Status>, c: string, t: string) {
    exists i :: 0 <= i < |ss| && ss[i].context == c && ss[i].createdAt == t
  }

  /** `m` maps every context of `ss`, and nothing else, to the greatest
      `createdAt` among that context's statuses. */
  ghost predicate Summarises(ss: seq<Status>, m: map<string, string>) {
    && (forall c :: c in m <==> HasContext(ss, c))
    && (forall c :: c in m ==> Attained(ss, c, m[c]))
    && (forall i :: 0 <= i < |ss| ==> ss[i].context in m && !Before(m[ss[i].context], ss[i].createdAt))
  }

  /** One iteration of the `forEach` building `statusesMap`: the entry is
      replaced when it is missing, falsy (the empty string) or older than
      the status at hand. */
  function Step(m: map<string, string>, s: Status): map<string, string> {
    if s.context !in m || m[s.context] == "" || Before(m[s.context], s.createdAt) then m[s.context := s.createdAt]
    else m
  }

  lemma StepSummarises(ss: seq<Status>, m: map<string, string>, s: Status)
    requires Summarises(ss, m)
    ensures Summarises(ss + [s], Step(m, s))
  {
    var ss' := ss + [s];
    var m' := Step(m, s);
    assert forall i :: 0 <= i < |ss| ==> ss'[i] == ss[i];
    assert ss'[|ss|] == s;
    forall c | c in m'
      ensures Attained(ss', c, m'[c])
    {
      if c == s.context && m'[c] == s.createdAt {
        assert ss'[|ss|].context == c;
      } else {
        var i :| 0 <= i < |ss| && ss[i].context == c && ss[i].createdAt == m[c];
        assert ss'[i].context == c;
      }
    }
    forall c
      ensures c in m' <==> HasContext(ss', c)
    {
      if HasContext(ss', c) && c != s.context {
        var i :| 0 <= i < |ss'| && ss'[i].context == c;
        assert HasContext(ss, c) by { assert ss[i].context == c; }
      }
      if c in m && c != s.context {
        var i :| 0 <= i < |ss| && ss[i].context == c;
        assert ss'[i].context == c;
      }
    }
    BeforeIrreflexive(s.createdAt);
    forall i | 0 <= i < |ss'|
      ensures ss'[i].context in m' && !Before(m'[ss'[i].context], ss'[i].createdAt)
    {
      if i < |ss| && ss[i].context == s.context && m'[s.context] == s.createdAt && m' != m {
        if Before(s.createdAt, ss[i].createdAt) {
          if m[s.context] != "" {
            BeforeTransitive(m[s.context], s.createdAt, ss[i].createdAt);
          }
        }
      }
    }
  }

  /** The `forEach` building `statusesMap`, folded left over the statuses. */
  function LatestTimes(ss: seq<Status>): (m: map<string, string>)
    ensures Summarises(ss, m)
  {
    if |ss| == 0 then map[]
    else
      var n := |ss| - 1;
      var m := LatestTimes(ss[..n]);
      StepSummarises(ss[..n], m, ss[n]);
      assert ss[..n] + [ss[n]] == ss;
      Step(m, ss[n])
  }

  /** `statuses.filter(status => status.created_at === statusesMap[status.context])`. */
  function KeepLatest(ss: seq<Status>, m: map<string, string>): (kept: seq<Status>)
    ensures forall s :: s in kept <==> s in ss && s.context in m && s.createdAt == m[s.context]
    ensures |kept| <= |ss|
  {
    if |ss| == 0 then []
    else if ss[0].context in m && ss[0].createdAt == m[ss[0].context] then [ss[0]] + KeepLatest(ss[1..], m)
    else KeepLatest(ss[1..], m)
  }

  function Authoritative(ss: seq<Status>): seq<Status> {
    KeepLatest(ss, LatestTimes(ss))
  }

  /** The kept statuses are exactly those no status of their context
      postdates: every status tied at the maximum survives, not just one. */
  lemma AuthoritativeSpec(ss: seq<Status>)
    ensures forall s :: s in Authoritative(ss) <==> s in ss && IsLatest(ss, s)
  {
    forall s
      ensures s in Authoritative(ss) <==> s in ss && IsLatest(ss, s)
    {
      KeptAt(ss, s);
    }
  }

  lemma KeptAt(ss: seq<Status>, s: Status)
    ensures s in Authoritative(ss) <==> s in ss && IsLatest(ss, s)
  {
    var m := LatestTimes(ss);
    if s in ss {
      var i :| 0 <= i < |ss| && ss[i].context == s.context && ss[i].createdAt == m[s.context];
      var k :| 0 <= k < |ss| && ss[k] == s;
      if IsLatest(ss, s) {
        assert !Before(s.createdAt, ss[i].createdAt);
        assert !Before(m[s.context], ss[k].createdAt);
        if s.createdAt != m[s.context] {
          BeforeTotal(s.createdAt, m[s.context]);
          assert false;
        }
      }
    }
  }

  /** Every context of the input keeps a status, so the kept list is empty
      exactly when the input is. */
  lemma EveryContextKept(ss: seq<Status>)
    ensures forall i :: 0 <= i < |ss| ==> exists s :: s in Authoritative(ss) && s.context == ss[i].context
    ensures |Authoritative(ss)| > 0 <==> |ss| > 0
  {
    var m := LatestTimes(ss);
    forall i | 0 <= i < |ss|
      ensures exists s :: s in Authoritative(ss) && s.context == ss[i].context
    {
      var j :| 0 <= j < |ss| && ss[j].context == ss[i].context && ss[j].createdAt == m[ss[i].context];
      assert ss[j] in Authoritative(ss);
    }
    if |ss| > 0 {
      assert exists s :: s in Authoritative(ss) && s.context == ss[0].context;
    }
  }

  /** The merge predicate of `handlePullRequest`. */
  predicate ShouldMerge(ss: seq<Status>) {
    var kept := Authoritative(ss);
    |kept| > 0 && forall k :: 0 <= k < |kept| ==> kept[k].state == "success"
  }

  /** A merge is permitted exactly when there is a status and every status
      that no later one of its context supersedes is a success. */
  lemma ShouldMergeIff(ss: seq<Status>)
    ensures ShouldMerge(ss) <==> |ss| > 0 && forall i :: 0 <= i < |ss| && IsLatest(ss, ss[i]) ==> ss[i].state == "success"
  {
    if ShouldMerge(ss) {
      MergeOnlyLatestSucceed(ss);
      assert |ss| > 0 by { EveryContextKept(ss); }
    }
    if |ss| > 0 && forall i :: 0 <= i < |ss| && IsLatest(ss, ss[i]) ==> ss[i].state == "success" {
      LatestSucceedMerge(ss);
    }
  }

  lemma MergeOnlyLatestSucceed(ss: seq<Status>)
    requires ShouldMerge(ss)
    ensures forall i :: 0 <= i < |ss| && IsLatest(ss, ss[i]) ==> ss[i].state == "success"
  {
    var kept := Authoritative(ss);
    forall i | 0 <= i < |ss| && IsLatest(ss, ss[i])
      ensures ss[i].state == "success"
    {
      assert ss[i] in kept by { KeptAt(ss, ss[i]); }
      SucceedsIfKept(kept, ss[i]);
    }
  }

  lemma SucceedsIfKept(kept: seq<Status>, s: Status)
    requires forall k :: 0 <= k < |kept| ==> kept[k].state == "success"
    requires s in kept
    ensures s.state == "success"
  {
  }

  lemma LatestSucceedMerge(ss: seq<Status>)
    requires |ss| > 0
    requires forall i :: 0 <= i < |ss| && IsLatest(ss, ss[i]) ==> ss[i].state == "success"
    ensures ShouldMerge(ss)
  {
    var kept := Authoritative(ss);
    assert |kept| > 0 by { EveryContextKept(ss); }
    forall k | 0 <= k < |kept|
      ensures kept[k].state == "success"
    {
      KeptAt(ss, kept[k]);
      var i :| 0 <= i < |ss| && ss[i] == kept[k];
    }
  }

  /** A success created after a failure of the same check supersedes it. */
  lemma LaterSuccessSupersedes(c: string, t1: string, t2: string)
    requires Before(t1, t2)
    ensures ShouldMerge([Status(c, "failure", t1), Status(c, "success", t2)])
  {
    var ss := [Status(c, "failure", t1), Status(c, "success", t2)];
    ShouldMergeIff(ss);
    BeforeAsymmetric(t1, t2);
    BeforeIrreflexive(t2);
    assert !IsLatest(ss, ss[0]);
  }

  /** A status that is not a success and that no status of its context
      postdates blocks the merge, even when a success is tied with it. */
  lemma LatestNonSuccessBlocks(ss: seq<Status>, i: nat)
    requires i < |ss| && IsLatest(ss, ss[i]) && ss[i].state != "success"
    ensures !ShouldMerge(ss)
  {
    ShouldMergeIff(ss);
  }
}

=== FILE: substitution.dfy ===
/** The global regular-expression substitutions node-release.js applies to
    configuration files. Every one of them has the shape
    `/<prefix>\d+\.\d+\.\d+<suffix>/g` replaced by `<prefix><target><suffix>`,
    so one scanner parameterised by the prefix and suffix models all five. */
module Substitution {
  import opened Outcomes
  import opened Text
  import Versions

  /** The literal text around the version in one pattern. The prefix starts
      with a non-digit and the suffix is empty or starts with a non-digit, so
      the greedy `\d+` groups match exactly the maximal digit runs. */
  datatype Pattern = Pattern(prefix: string, suffix: string)

  predicate WellFormed(p: Pattern) {
    && |p.prefix| > 0 && !IsDigit(p.prefix[0])
    && (|p.suffix| == 0 || !IsDigit(p.suffix[0]))
  }

  predicate HasAt(text: string, i: nat, lit: string) {
    i + |lit| <= |text| && text[i..i + |lit|] == lit
  }

  /** A match of the pattern starting at `i`: where its version ends and
      where the whole match ends. */
  datatype Match = Match(versionEnd: nat, end: nat)

  function MatchAt(text: string, i: nat, p: Pattern): (m: Option<Match>)
    requires i <= |text|
    ensures m.Some? ==> i + |p.prefix| + 5 <= m.value.versionEnd <= m.value.end <= |text|
    ensures m.Some? ==> m.value.end == m.value.versionEnd + |p.suffix|
    ensures m.Some? ==> HasAt(text, i, p.prefix) && HasAt(text, m.value.versionEnd, p.suffix)
    ensures m.Some? ==> TripleEnd(text, i + |p.prefix|) == Some(m.value.versionEnd)
    // every occurrence of the prefix, a triple and the suffix is found
    ensures (HasAt(text, i, p.prefix) && TripleEnd(text, i + |p.prefix|).Some?
             && HasAt(text, TripleEnd(text, i + |p.prefix|).value, p.suffix)) ==>
      var e := TripleEnd(text, i + |p.prefix|).value;
      m == Some(Match(e, e + |p.suffix|))
  {
    if !HasAt(text, i, p.prefix) then None
    else match TripleEnd(text, i + |p.prefix|)
      case None => None
      case Some(ve) => if HasAt(text, ve, p.suffix) then Some(Match(ve, ve + |p.suffix|)) else None
  }

  /** `text.replace(/<prefix>\d+\.\d+\.\d+<suffix>/g, <prefix> + target + <suffix>)`,
      from position `i` on: at each position either a match is replaced and the
      scan resumes after it, or one character is copied. */
  function Scan(text: string, i: nat, p: Pattern, target: string): string
    requires i <= |text|
    decreases |text| - i
  {
    if i == |text| then []
    else match MatchAt(text, i, p)
      case Some(m) => p.prefix + target + p.suffix + Scan(text, m.end, p, target)
      case None => [text[i]] + Scan(text, i + 1, p, target)
  }

  function ReplaceAll(text: string, p: Pattern, target: string): string {
    Scan(text, 0, p, target)
  }

  /** Every match the scan meets from `i` on already carries `target` as its
      version. */
  predicate AllTokensAre(text: string, i: nat, p: Pattern, target: string)
    requires i <= |text|
    decreases |text| - i
  {
    if i == |text| then true
    else match MatchAt(text, i, p)
      case Some(m) => text[i + |p.prefix|..m.versionEnd] == target && AllTokensAre(text, m.end, p, target)
      case None => AllTokensAre(text, i + 1, p, target)
  }

  /** Two different triples stay different whatever non-digit text follows
      them. */
  lemma TriplesDiffer(x0: string, x1: string, x2: string, y0: string, y1: string, y2: string, u: string, w: string)
    requires Groups3(x0, x1, x2) && Groups3(y0, y1, y2)
    requires StartsNonDigit(u) && StartsNonDigit(w)
    requires x0 + "." + x1 + "." + x2 != y0 + "." + y1 + "." + y2
    ensures x0 + "." + x1 + "." + x2 + u != y0 + "." + y1 + "." + y2 + w
  {
    if x0 + "." + x1 + "." + x2 + u == y0 + "." + y1 + "." + y2 + w {
      TripleUnique(x0, x1, x2, y0, y1, y2, u, w);
      assert false;
    }
  }

  /** The text of a triple: three digit groups separated by dots, followed by
      a non-digit or by the end of the text. */
  lemma TripleShape(text: string, j: nat) returns (g0: string, g1: string, g2: string)
    requires j <= |text| && TripleEnd(text, j).Some?
    ensures Groups3(g0, g1, g2)
    ensures text[j..TripleEnd(text, j).value] == g0 + "." + g1 + "." + g2
    ensures var e := TripleEnd(text, j).value; e == |text| || !IsDigit(text[e])
  {
    var a := DigitRun(text, j);
    var b := DigitRun(text, j + a + 1);
    var k := j + a + b + 2;
    var c := DigitRun(text, k);
    assert TripleEnd(text, j) == Some(k + c);
    DigitRunDigits(text, j);
    DigitRunDigits(text, j + a + 1);
    DigitRunDigits(text, k);
    g0, g1, g2 := text[j..j + a], text[j + a + 1..k - 1], text[k..k + c];
    Pieces(text, j, j + a, k - 1, k + c);
  }

  /** Cutting `text[lo..hi]` at two single-character separators. */
  lemma Pieces(text: string, lo: nat, d1: nat, d2: nat, hi: nat)
    requires lo <= d1 && d1 + 1 <= d2 && d2 + 1 <= hi <= |text|
    requires text[d1] == '.' && text[d2] == '.'
    ensures text[lo..hi] == text[lo..d1] + "." + text[d1 + 1..d2] + "." + text[d2 + 1..hi]
  {
    var r := text[lo..d1] + "." + text[d1 + 1..d2] + "." + text[d2 + 1..hi];
    assert |r| == hi - lo;
    forall x | 0 <= x < hi - lo
      ensures r[x] == text[lo + x]
    {
      if x < d1 - lo {
      } else if x == d1 - lo {
      } else if x < d2 - lo {
      } else if x == d2 - lo {
      }
    }
  }

  /** The text of a match: the prefix, a triple, the suffix; with an empty
      suffix the triple is followed by a non-digit or by the end. */
  lemma MatchShape(text: string, i: nat, p: Pattern) returns (g0: string, g1: string, g2: string)
    requires i <= |text| && MatchAt(text, i, p).Some?
    ensures var m := MatchAt(text, i, p).value;
      && Groups3(g0, g1, g2)
      && text[i + |p.prefix|..m.versionEnd] == g0 + "." + g1 + "." + g2
      && text[i..m.end] == p.prefix + (g0 + "." + g1 + "." + g2) + p.suffix
      && (m.end == |text| || |p.suffix| > 0 || !IsDigit(text[m.end]))
  {
    var m := MatchAt(text, i, p).value;
    var j := i + |p.prefix|;
    assert TripleEnd(text, j) == Some(m.versionEnd) && m.end == m.versionEnd + |p.suffix|;
    g0, g1, g2 := TripleShape(text, j);
    assert text[i..m.end] == p.prefix + (g0 + "." + g1 + "." + g2) + p.suffix by {
      MatchText(text, i, p, m);
    }
  }

  lemma Split(s: string, lo: nat, mid: nat, hi: nat)
    requires lo <= mid <= hi <= |s|
    ensures s[lo..hi] == s[lo..mid] + s[mid..hi]
  {
  }

  /** After a non-digit the scan's output starts with a non-digit too. */
  lemma ScanHead(text: string, i: nat, p: Pattern, target: string)
    requires WellFormed(p) && i < |text| && !IsDigit(text[i])
    ensures |Scan(text, i, p, target)| > 0 && !IsDigit(Scan(text, i, p, target)[0])
  {
  }

  lemma ScanAtMatch(text: string, i: nat, p: Pattern, target: string, m: Match)
    requires i < |text| && MatchAt(text, i, p) == Some(m)
    ensures Scan(text, i, p, target) == p.prefix + (target + (p.suffix + Scan(text, m.end, p, target)))
  {
    assert Scan(text, i, p, target) == p.prefix + target + p.suffix + Scan(text, m.end, p, target);
    Assoc(p.prefix, target, p.suffix, Scan(text, m.end, p, target));
  }

  lemma CancelPrefix(pre: string, a: string, b: string)
    requires pre + a == pre + b
    ensures a == b
  {
    assert a == (pre + a)[|pre|..];
  }

  /** Replacing a match whose version is not the target changes the text. */
  lemma TokenDiffers(text: string, i: nat, p: Pattern, target: string, m: Match, y0: string, y1: string, y2: string)
    requires WellFormed(p) && Groups3(y0, y1, y2) && target == y0 + "." + y1 + "." + y2 && i < |text|
    requires MatchAt(text, i, p) == Some(m)
    requires text[i + |p.prefix|..m.versionEnd] != target
    ensures Scan(text, i, p, target) != text[i..]
  {
    var tok := text[i + |p.prefix|..m.versionEnd];
    var u := p.suffix + text[m.end..];
    var w := p.suffix + Scan(text, m.end, p, target);
    assert tok + u != target + w by {
      var g0, g1, g2 := MatchShape(text, i, p);
      FollowsNonDigit(text, i, p, target, m);
      TriplesDiffer(g0, g1, g2, y0, y1, y2, u, w);
    }
    assert text[i..] == p.prefix + (tok + u) by {
      MatchText(text, i, p, m);
      Split(text, i, m.end, |text|);
      Assoc(p.prefix, tok, p.suffix, text[m.end..]);
    }
    assert Scan(text, i, p, target) == p.prefix + (target + w) by {
      ScanAtMatch(text, i, p, target, m);
    }
    PrefixKeepsDifference(p.prefix, tok + u, target + w);
  }

  lemma PrefixKeepsDifference(pre: string, a: string, b: string)
    requires a != b
    ensures pre + a != pre + b
  {
    if pre + a == pre + b {
      CancelPrefix(pre, a, b);
      assert false;
    }
  }

  /** What follows a match, in the text and in the scan's output, does not
      start with a digit. */
  lemma FollowsNonDigit(text: string, i: nat, p: Pattern, target: string, m: Match)
    requires WellFormed(p) && i < |text| && MatchAt(text, i, p) == Some(m)
    ensures StartsNonDigit(p.suffix + text[m.end..])
    ensures StartsNonDigit(p.suffix + Scan(text, m.end, p, target))
  {
    var g0, g1, g2 := MatchShape(text, i, p);
    if |p.suffix| == 0 {
      assert p.suffix + text[m.end..] == text[m.end..];
      assert p.suffix + Scan(text, m.end, p, target) == Scan(text, m.end, p, target);
      if m.end < |text| {
        ScanHead(text, m.end, p, target);
      }
    } else {
      assert (p.suffix + text[m.end..])[0] == p.suffix[0];
      assert (p.suffix + Scan(text, m.end, p, target))[0] == p.suffix[0];
    }
  }

  lemma Assoc(a: string, b: string, c: string, d: string)
    ensures a + b + c + d == a + (b + (c + d))
  {
  }

  /** The text of a match: the prefix, the version, the suffix. */
  lemma MatchText(text: string, i: nat, p: Pattern, m: Match)
    requires i <= |text| && MatchAt(text, i, p) == Some(m)
    ensures text[i..m.end] == p.prefix + text[i + |p.prefix|..m.versionEnd] + p.suffix
  {
    var j := i + |p.prefix|;
    assert text[i..j] == p.prefix && text[m.versionEnd..m.end] == p.suffix;
    Split(text, i, j, m.end);
    Split(text, j, m.versionEnd, m.end);
  }

  /** Replacing a match whose version is already the target rewrites it to
      itself. */
  lemma TokenSame(text: string, i: nat, p: Pattern, target: string, m: Match)
    requires i < |text| && MatchAt(text, i, p) == Some(m)
    requires text[i + |p.prefix|..m.versionEnd] == target
    ensures Scan(text, i, p, target) == text[i..] <==> Scan(text, m.end, p, target) == text[m.end..]
  {
    var head := p.prefix + target + p.suffix;
    var rest := Scan(text, m.end, p, target);
    assert Scan(text, i, p, target) == head + rest by {
      ScanAtMatch(text, i, p, target, m);
      Assoc(p.prefix, target, p.suffix, rest);
    }
    assert text[i..] == head + text[m.end..] by {
      MatchText(text, i, p, m);
      Split(text, i, m.end, |text|);
    }
    if head + rest == head + text[m.end..] {
      CancelPrefix(head, rest, text[m.end..]);
    }
  }

  /** A substitution leaves the text unchanged exactly when every match it
      meets already names the target version. This is what decides each
      "Expected ... to be edited" assertion. */
  lemma {:induction false} ScanUnchangedIff(text: string, i: nat, p: Pattern, target: string)
    requires WellFormed(p) && Versions.IsTriple(target) && i <= |text|
    ensures Scan(text, i, p, target) == text[i..] <==> AllTokensAre(text, i, p, target)
    decreases |text| - i
  {
    if i < |text| {
      match MatchAt(text, i, p)
      case None =>
        ScanUnchangedIff(text, i + 1, p, target);
        NoMatchStep(text, i, p, target);
      case Some(m) =>
        ScanUnchangedIff(text, m.end, p, target);
        MatchStep(text, i, p, target, m);
    }
  }

  /** Where a match starts, the scan keeps the text exactly when the match
      names the target and the rest of the scan keeps the rest. */
  lemma MatchStep(text: string, i: nat, p: Pattern, target: string, m: Match)
    requires WellFormed(p) && Versions.IsTriple(target) && i < |text| && MatchAt(text, i, p) == Some(m)
    requires Scan(text, m.end, p, target) == text[m.end..] <==> AllTokensAre(text, m.end, p, target)
    ensures Scan(text, i, p, target) == text[i..] <==> AllTokensAre(text, i, p, target)
  {
    if text[i + |p.prefix|..m.versionEnd] == target {
      assert Scan(text, i, p, target) == text[i..] <==> Scan(text, m.end, p, target) == text[m.end..] by {
        TokenSame(text, i, p, target, m);
      }
      assert AllTokensAre(text, i, p, target) == AllTokensAre(text, m.end, p, target);
    } else {
      assert Scan(text, i, p, target) != text[i..] by {
        var y := Versions.Groups(target);
        TokenDiffers(text, i, p, target, m, y.0, y.1, y.2);
      }
      assert !AllTokensAre(text, i, p, target);
    }
  }

  /** Where no match starts, the scan copies one character and moves on. */
  lemma NoMatchStep(text: string, i: nat, p: Pattern, target: string)
    requires i < |text| && MatchAt(text, i, p).None?
    ensures Scan(text, i, p, target) == text[i..] <==> Scan(text, i + 1, p, target) == text[i + 1..]
    ensures AllTokensAre(text, i, p, target) == AllTokensAre(text, i + 1, p, target)
  {
    var r := Scan(text, i + 1, p, target);
    assert Scan(text, i, p, target) == [text[i]] + r;
    assert text[i..] == [text[i]] + text[i + 1..];
    if [text[i]] + r == [text[i]] + text[i + 1..] {
      CancelPrefix([text[i]], r, text[i + 1..]);
    }
  }
}

=== FILE: text.dfy ===
/** Character-level helpers: ASCII digits as matched by the regular-expression
    class `\d`, and the ordering JavaScript's `<` gives two strings. */
module Text {
  import opened Outcomes

  predicate IsDigit(c: char) {
    '0' <= c <= '9'
  }

  predicate AllDigits(s: string) {
    forall i :: 0 <= i < |s| ==> IsDigit(s[i])
  }

  /** Length of the longest run of digits in `s` starting at `i`; this is what a
      greedy `\d+` consumes. */
  function DigitRun(s: string, i: nat): (n: nat)
    requires i <= |s|
    ensures i + n <= |s|
    ensures i + n < |s| ==> !IsDigit(s[i + n])
    decreases |s| - i
  {
    if i < |s| && IsDigit(s[i]) then 1 + DigitRun(s, i + 1) else 0
  }

  /** Everything `DigitRun` measures is a digit. */
  lemma {:induction false} DigitRunDigits(s: string, i: nat)
    requires i <= |s|
    ensures AllDigits(s[i..i + DigitRun(s, i)])
    decreases |s| - i
  {
    if i < |s| && IsDigit(s[i]) {
      DigitRunDigits(s, i + 1);
      var n := DigitRun(s, i + 1);
      assert DigitRun(s, i) == 1 + n;
      var d, tail := s[i..i + 1 + n], s[i + 1..i + 1 + n];
      assert AllDigits(tail);
      forall k | 0 <= k < |d|
        ensures IsDigit(d[k])
      {
        if k == 0 {
          assert d[k] == s[i];
        } else {
          assert d[k] == tail[k - 1] && IsDigit(tail[k - 1]);
        }
      }
    }
  }

  /** Numeric value of a string of decimal digits. */
  function DigitsValue(s: string): nat
    requires AllDigits(s)
  {
    if |s| == 0 then 0
    else 10 * DigitsValue(s[..|s| - 1]) + (s[|s| - 1] as int - '0' as int)
  }

  /** JavaScript's `a < b` on strings: lexicographic on character codes, where
      a proper prefix is smaller. (Dafny's own `<` on sequences is "proper
      prefix", which is not this order.) */
  predicate Before(a: string, b: string)
    decreases |a|
  {
    if |b| == 0 then false
    else if |a| == 0 then true
    else if a[0] != b[0] then a[0] < b[0]
    else Before(a[1..], b[1..])
  }

  lemma {:induction false} BeforeIrreflexive(a: string)
    ensures !Before(a, a)
    decreases |a|
  {
    if |a| > 0 {
      BeforeIrreflexive(a[1..]);
    }
  }

  lemma {:induction false} BeforeTransitive(a: string, b: string, c: string)
    requires Before(a, b) && Before(b, c)
    ensures Before(a, c)
    decreases |a|
  {
    if |a| > 0 && a[0] == b[0] && b[0] == c[0] {
      BeforeTransitive(a[1..], b[1..], c[1..]);
    }
  }

  /** Two different strings are always ordered one way or the other. */
  lemma {:induction false} BeforeTotal(a: string, b: string)
    requires a != b
    ensures Before(a, b) || Before(b, a)
    decreases |a|
  {
    if |a| > 0 && |b| > 0 && a[0] == b[0] {
      assert a == [a[0]] + a[1..] && b == [b[0]] + b[1..];
      BeforeTotal(a[1..], b[1..]);
    }
  }

  lemma {:induction false} BeforeAsymmetric(a: string, b: string)
    requires Before(a, b)
    ensures !Before(b, a)
    decreases |a|
  {
    if |a| > 0 && a[0] == b[0] {
      BeforeAsymmetric(a[1..], b[1..]);
    }
  }

  /** The character of a decimal digit. */
  function DigitChar(d: nat): (c: char)
    requires d < 10
    ensures IsDigit(c) && c as int - '0' as int == d
  {
    ('0' as int + d) as char
  }

  /** JavaScript's string conversion of a non-negative integer, as in
      `' (#' + number + ')'`: its decimal digits without leading zeros. */
  function NumberText(n: nat): string
    decreases n
  {
    if n < 10 then [DigitChar(n)]
    else NumberText(n / 10) + [DigitChar(n % 10)]
  }

  /** A digit string without superfluous leading zeros: `0`, or a string
      not starting with `0`. */
  predicate NoLeadingZero(d: string) {
    |d| == 1 || (|d| > 0 && d[0] != '0')
  }

  /** Reading the digits back gives the number, and only zero starts
      with `0`. */
  lemma {:induction false} NumberTextValue(n: nat)
    ensures |NumberText(n)| > 0 && AllDigits(NumberText(n))
    ensures DigitsValue(NumberText(n)) == n
    ensures NumberText(n)[0] == '0' <==> n == 0
    ensures NoLeadingZero(NumberText(n))
    decreases n
  {
    if n >= 10 {
      var t := NumberText(n / 10);
      NumberTextValue(n / 10);
      var s := t + [DigitChar(n % 10)];
      assert s[..|s| - 1] == t;
      assert s[0] == t[0];
    }
  }

  /** A digit string that does not start with `0` denotes a positive number. */
  lemma {:induction false} LeadingDigitPositive(d: string)
    requires AllDigits(d) && |d| > 0 && d[0] != '0'
    ensures DigitsValue(d) > 0
    decreases |d|
  {
    if |d| > 1 {
      var init := d[..|d| - 1];
      assert init[0] == d[0];
      LeadingDigitPositive(init);
    }
  }

  /** A digit string without superfluous leading zeros is the decimal
      rendering of its own value. */
  lemma {:induction false} CanonicalDigits(d: string)
    requires AllDigits(d) && NoLeadingZero(d)
    ensures NumberText(DigitsValue(d)) == d
    decreases |d|
  {
    var n := |d| - 1;
    var init := d[..n];
    var c := d[n];
    var cv := c as int - '0' as int;
    assert DigitChar(cv) == c;
    if n == 0 {
      assert d == [c];
    } else {
      assert init[0] == d[0];
      CanonicalDigits(init);
      LeadingDigitPositive(init);
      var v := DigitsValue(d);
      assert v == 10 * DigitsValue(init) + cv;
      assert v / 10 == DigitsValue(init) && v % 10 == cv;
      assert d == init + [c];
    }
  }

  /** A greedy `\d+` at `i` over a run of exactly `n` digits measures `n`. */
  lemma {:induction false} DigitRunOver(s: string, i: nat, n: nat)
    requires i + n <= |s|
    requires forall k :: i <= k < i + n ==> IsDigit(s[k])
    requires i + n == |s| || !IsDigit(s[i + n])
    ensures DigitRun(s, i) == n
    decreases n
  {
    if n > 0 {
      DigitRunOver(s, i + 1, n - 1);
    }
  }

  /** Where `\d+\.\d+\.\d+` starting at `j` ends, taking each group greedily. */
  function TripleEnd(text: string, j: nat): (e: Option<nat>)
    requires j <= |text|
    ensures e.Some? ==> j + 5 <= e.value <= |text|
  {
    var a := DigitRun(text, j);
    if a == 0 || j + a == |text| || text[j + a] != '.' then None
    else
      var b := DigitRun(text, j + a + 1);
      if b == 0 || j + a + 1 + b == |text| || text[j + a + 1 + b] != '.' then None
      else
        var k := j + a + b + 2;
        var c := DigitRun(text, k);
        if c == 0 then None else Some(k + c)
  }

  /** A triple written as its three digit groups. */
  predicate Groups3(g0: string, g1: string, g2: string) {
    && |g0| > 0 && |g1| > 0 && |g2| > 0
    && AllDigits(g0) && AllDigits(g1) && AllDigits(g2)
  }

  predicate StartsNonDigit(s: string) {
    |s| == 0 || !IsDigit(s[0])
  }

  /** Where the shorter of two texts leaves its digits for non-digit text,
      the longer digit string still has a digit. */
  lemma DigitInside(y: string, t: string, x: string, s: string)
    requires AllDigits(y) && StartsNonDigit(s) && |x| < |y| && |s| > 0
    ensures (x + s)[|x|] != (y + t)[|x|]
  {
    assert (x + s)[|x|] == s[0];
    assert (y + t)[|x|] == y[|x|];
  }

  /** A digit string followed by non-digit text splits back uniquely. */
  lemma DigitsSplit(x: string, s: string, y: string, t: string)
    requires AllDigits(x) && AllDigits(y) && StartsNonDigit(s) && StartsNonDigit(t)
    requires x + s == y + t
    ensures x == y && s == t
  {
    if |x| < |y| {
      if |s| == 0 {
        assert false;
      }
      DigitInside(y, t, x, s);
      assert false;
    } else if |y| < |x| {
      if |t| == 0 {
        assert false;
      }
      DigitInside(x, s, y, t);
      assert false;
    }
    assert x == (x + s)[..|x|] && y == (y + t)[..|y|];
  }

  lemma Nest(a: string, b: string, c: string, d: string)
    ensures a + "." + b + "." + c + d == a + ("." + (b + ("." + (c + d))))
  {
  }

  lemma DropDot(x: string)
    ensures ("." + x)[1..] == x
  {
  }

  /** A dotted triple followed by non-digit text splits back uniquely into
      its three groups and that text. */
  lemma TripleUnique(x0: string, x1: string, x2: string, y0: string, y1: string, y2: string, u: string, w: string)
    requires Groups3(x0, x1, x2) && Groups3(y0, y1, y2)
    requires StartsNonDigit(u) && StartsNonDigit(w)
    requires x0 + "." + x1 + "." + x2 + u == y0 + "." + y1 + "." + y2 + w
    ensures x0 == y0 && x1 == y1 && x2 == y2 && u == w
  {
    Nest(x0, x1, x2, u);
    Nest(y0, y1, y2, w);
    var xt := "." + (x2 + u);
    var yt := "." + (y2 + w);
    var xr := "." + (x1 + xt);
    var yr := "." + (y1 + yt);
    DigitsSplit(x0, xr, y0, yr);
    DropDot(x1 + xt);
    DropDot(y1 + yt);
    DigitsSplit(x1, xt, y1, yt);
    DropDot(x2 + u);
    DropDot(y2 + w);
    DigitsSplit(x2, u, y2, w);
  }
}

=== FILE: versions.dfy ===
/** Version resolution for the node-release bot: which release strings are
    taken from the release index, the semantic-version maximum over them, the
    LTS table, and the four targets (stable, lts, stable_circle, lts_circle). */
module Versions {
  import opened Outcomes
  import opened Text

  /** A strict `MAJOR.MINOR.PATCH` version. */
  datatype Version = Version(major: nat, minor: nat, patch: nat)

  /** Semantic-version precedence on plain triples: lexicographic. */
  predicate Less(a: Version, b: Version) {
    || a.major < b.major
    || (a.major == b.major && a.minor < b.minor)
    || (a.major == b.major && a.minor == b.minor && a.patch < b.patch)
  }

  predicate LessEq(a: Version, b: Version) {
    Less(a, b) || a == b
  }

  /** `t` matches `^\d+\.\d+\.\d+$` (`\d` is ASCII only: no `u` flag). */
  predicate IsTriple(t: string) {
    TripleEnd(t, 0) == Some(|t|)
  }

  /** `s` matches `^v\d+\.\d+\.\d+$`, the filter of node-release.js. */
  predicate IsReleaseTag(s: string) {
    |s| > 0 && s[0] == 'v' && IsTriple(s[1..])
  }

  /** The three digit groups of a triple. */
  function Groups(t: string): (g: (string, string, string))
    requires IsTriple(t)
    ensures AllDigits(g.0) && AllDigits(g.1) && AllDigits(g.2)
    ensures 0 < |g.0| && 0 < |g.1| && 0 < |g.2|
    ensures t == g.0 + "." + g.1 + "." + g.2
  {
    var a := DigitRun(t, 0);
    var b := DigitRun(t, a + 1);
    var c := DigitRun(t, a + b + 2);
    DigitRunDigits(t, 0);
    DigitRunDigits(t, a + 1);
    DigitRunDigits(t, a + b + 2);
    assert t[..a] == t[0..0 + a];
    assert t[a + b + 2..] == t[a + b + 2..a + b + 2 + c];
    var g := (t[..a], t[a + 1..a + 1 + b], t[a + b + 2..]);
    assert t == g.0 + "." + g.1 + "." + g.2;
    g
  }

  /** A triple the `semver` parser accepts: numeric identifiers are `0` or do
      not start with `0`. */
  predicate SemverValid(t: string) {
    && IsTriple(t)
    && var g := Groups(t);
    && NoLeadingZero(g.0) && NoLeadingZero(g.1) && NoLeadingZero(g.2)
  }

  function Parse(t: string): Version
    requires IsTriple(t)
  {
    var g := Groups(t);
    Version(DigitsValue(g.0), DigitsValue(g.1), DigitsValue(g.2))
  }

  /** The canonical text of a version: its three numbers in decimal,
      separated by dots. */
  function VersionText(v: Version): string {
    NumberText(v.major) + "." + NumberText(v.minor) + "." + NumberText(v.patch)
  }

  /** What the `semver` parser makes of a candidate string: a string is
      accepted exactly when it is a dotted triple that is the canonical text
      of the version it denotes. */
  function SemverParse(t: string): (v: Option<Version>)
    ensures v.Some? <==> IsTriple(t) && t == VersionText(Parse(t))
    ensures v.Some? ==> v.value == Parse(t) && t == VersionText(v.value)
  {
    CanonicalTriple(t);
    if SemverValid(t) then Some(Parse(t)) else None
  }

  /** The groups of a triple are free of leading zeros exactly when the
      triple is the canonical text of its value. */
  lemma CanonicalTriple(t: string)
    ensures SemverValid(t) <==> IsTriple(t) && t == VersionText(Parse(t))
  {
    if IsTriple(t) {
      var g := Groups(t);
      var w := Parse(t);
      var n0, n1, n2 := NumberText(w.major), NumberText(w.minor), NumberText(w.patch);
      if SemverValid(t) {
        CanonicalDigits(g.0);
        CanonicalDigits(g.1);
        CanonicalDigits(g.2);
      }
      if t == VersionText(w) {
        NumberTextValue(w.major);
        NumberTextValue(w.minor);
        NumberTextValue(w.patch);
        assert g.0 + "." + g.1 + "." + g.2 + "" == n0 + "." + n1 + "." + n2 + "";
        TripleUnique(g.0, g.1, g.2, n0, n1, n2, "", "");
      }
    }
  }

  /** Rendering a version and parsing the text gives the version back. */
  lemma SemverParseRendered(w: Version)
    ensures SemverParse(VersionText(w)) == Some(w)
  {
    var n0, n1, n2 := NumberText(w.major), NumberText(w.minor), NumberText(w.patch);
    NumberTextValue(w.major);
    NumberTextValue(w.minor);
    NumberTextValue(w.patch);
    var s := VersionText(w);
    assert IsTriple(s) by {
      RenderedIsTriple(n0, n1, n2);
    }
    var g := Groups(s);
    assert g.0 + "." + g.1 + "." + g.2 + "" == n0 + "." + n1 + "." + n2 + "";
    TripleUnique(g.0, g.1, g.2, n0, n1, n2, "", "");
  }

  lemma RenderedIsTriple(n0: string, n1: string, n2: string)
    requires Groups3(n0, n1, n2)
    ensures IsTriple(n0 + "." + n1 + "." + n2)
  {
    var s := n0 + "." + n1 + "." + n2;
    var a, b := |n0|, |n1|;
    assert forall k :: 0 <= k < a ==> s[k] == n0[k];
    assert forall k :: a + 1 <= k < a + 1 + b ==> s[k] == n1[k - a - 1];
    assert forall k :: a + b + 2 <= k < |s| ==> s[k] == n2[k - a - b - 2];
    DigitRunOver(s, 0, a);
    DigitRunOver(s, a + 1, b);
    DigitRunOver(s, a + b + 2, |n2|);
  }

  /** One entry of the release index: its `version` string and the
      truthiness of its `lts` field (`!!release.lts`). */
  datatype Release = Release(version: string, lts: bool)

  /** `s.substr(1)`. */
  function Strip(s: string): string {
    if |s| == 0 then s else s[1..]
  }

  /** A release that reaches `maxSatisfying` and is not skipped by it. */
  predicate Eligible(r: Release) {
    IsReleaseTag(r.version) && SemverParse(Strip(r.version)).Some?
  }

  /** `semver.maxSatisfying(candidates, '*')`, with the parser as `key`: walks
      the candidates in order, skips the ones that do not parse, and keeps the
      first of the greatest. */
  function MaxSatisfying(c: seq<string>, key: string -> Option<Version>): (r: Option<string>)
    ensures r.None? <==> forall i :: 0 <= i < |c| ==> key(c[i]).None?
    ensures r.Some? ==> r.value in c && key(r.value).Some?
    ensures r.Some? ==> forall i :: 0 <= i < |c| && key(c[i]).Some? ==> LessEq(key(c[i]).value, key(r.value).value)
  {
    if |c| == 0 then None
    else
      var m := MaxSatisfying(c[..|c| - 1], key);
      var v := c[|c| - 1];
      assert forall i :: 0 <= i < |c| - 1 ==> c[..|c| - 1][i] == c[i];
      if key(v).Some? && (m.None? || Less(key(m.value).value, key(v).value)) then Some(v) else m
  }

  /** The release strings passing `tag`, each with its first character removed. */
  function Candidates(rs: seq<Release>, tag: string -> bool): (vs: seq<string>)
    ensures forall v :: v in vs <==> exists i :: 0 <= i < |rs| && tag(rs[i].version) && Strip(rs[i].version) == v
  {
    if |rs| == 0 then []
    else
      var rest := Candidates(rs[1..], tag);
      assert forall i :: 1 <= i < |rs| ==> rs[1..][i - 1] == rs[i];
      if tag(rs[0].version) then [Strip(rs[0].version)] + rest else rest
  }

  /** `maxVersion(releases)` of node-release.js: filter on
      `^v\d+\.\d+\.\d+$`, drop the `v`, take `maxSatisfying(..., '*')`. */
  function MaxVersion(rs: seq<Release>): Option<string> {
    MaxSatisfying(Candidates(rs, IsReleaseTag), SemverParse)
  }

  /** The maximum over filtered candidates is taken over exactly the releases
      that pass both the filter and the parser. */
  lemma MaxOverCandidates(rs: seq<Release>, tag: string -> bool, key: string -> Option<Version>)
    ensures var m := MaxSatisfying(Candidates(rs, tag), key);
      m.None? <==> forall i :: 0 <= i < |rs| ==> !(tag(rs[i].version) && key(Strip(rs[i].version)).Some?)
    ensures var m := MaxSatisfying(Candidates(rs, tag), key);
      m.Some? ==> exists i :: 0 <= i < |rs| && tag(rs[i].version) && Strip(rs[i].version) == m.value
    ensures var m := MaxSatisfying(Candidates(rs, tag), key);
      m.Some? ==> key(m.value).Some? && forall i :: 0 <= i < |rs| && tag(rs[i].version) && key(Strip(rs[i].version)).Some? ==>
        LessEq(key(Strip(rs[i].version)).value, key(m.value).value)
  {
    var vs := Candidates(rs, tag);
    var m := MaxSatisfying(vs, key);
    if m.None? {
      forall i | 0 <= i < |rs| && tag(rs[i].version)
        ensures key(Strip(rs[i].version)).None?
      {
        assert Strip(rs[i].version) in vs;
      }
    } else {
      assert m.value in vs;
      forall i | 0 <= i < |rs| && tag(rs[i].version) && key(Strip(rs[i].version)).Some?
        ensures LessEq(key(Strip(rs[i].version)).value, key(m.value).value)
      {
        assert Strip(rs[i].version) in vs;
      }
    }
  }

  /** `maxVersion` returns null exactly when no release is eligible, and
      otherwise the stripped version of an eligible release that is at least
      every eligible release. */
  lemma MaxVersionSpec(rs: seq<Release>)
    ensures MaxVersion(rs).None? <==> forall i :: 0 <= i < |rs| ==> !Eligible(rs[i])
    ensures MaxVersion(rs).Some? ==>
      exists i :: 0 <= i < |rs| && Eligible(rs[i]) && Strip(rs[i].version) == MaxVersion(rs).value
    ensures MaxVersion(rs).Some? ==> SemverParse(MaxVersion(rs).value).Some?
    ensures MaxVersion(rs).Some? ==> forall i :: 0 <= i < |rs| && Eligible(rs[i]) ==>
      LessEq(SemverParse(Strip(rs[i].version)).value, SemverParse(MaxVersion(rs).value).value)
  {
    MaxOverCandidates(rs, IsReleaseTag, SemverParse);
  }

  /** Release `i` is the last entry of `rs` whose tag strips to `k`. */
  predicate LastEntry(rs: seq<Release>, tag: string -> bool, i: int, k: string) {
    && 0 <= i < |rs| && tag(rs[i].version) && Strip(rs[i].version) == k
    && forall j :: i < j < |rs| && tag(rs[j].version) ==> Strip(rs[j].version) != k
  }

  /** `m` has one key per tagged release, holding the `lts` flag of the last
      release with that version. */
  ghost predicate TableOf(rs: seq<Release>, tag: string -> bool, m: map<string, bool>) {
    && (forall k :: k in m <==> exists i :: 0 <= i < |rs| && tag(rs[i].version) && Strip(rs[i].version) == k)
    && (forall k :: k in m ==> exists i :: LastEntry(rs, tag, i, k) && m[k] == rs[i].lts)
  }

  /** One step of the `reduce`: a tagged release sets its entry. */
  function TableStep(m: map<string, bool>, r: Release, tag: string -> bool): map<string, bool> {
    if tag(r.version) then m[Strip(r.version) := r.lts] else m
  }

  lemma TableStepKeeps(rs: seq<Release>, tag: string -> bool, m: map<string, bool>, r: Release)
    requires TableOf(rs, tag, m)
    ensures TableOf(rs + [r], tag, TableStep(m, r, tag))
  {
    TableStepKeys(rs, tag, m, r);
    TableStepValues(rs, tag, m, r);
  }

  lemma TableStepKeys(rs: seq<Release>, tag: string -> bool, m: map<string, bool>, r: Release)
    requires forall k :: k in m <==> exists i :: 0 <= i < |rs| && tag(rs[i].version) && Strip(rs[i].version) == k
    ensures var rs', m' := rs + [r], TableStep(m, r, tag);
      forall k :: k in m' <==> exists i :: 0 <= i < |rs'| && tag(rs'[i].version) && Strip(rs'[i].version) == k
  {
    var rs' := rs + [r];
    var m' := TableStep(m, r, tag);
    var n := |rs|;
    forall k
      ensures k in m' <==> exists i :: 0 <= i < |rs'| && tag(rs'[i].version) && Strip(rs'[i].version) == k
    {
      if exists i :: 0 <= i < |rs'| && tag(rs'[i].version) && Strip(rs'[i].version) == k {
        var i :| 0 <= i < |rs'| && tag(rs'[i].version) && Strip(rs'[i].version) == k;
        if i < n {
          assert rs'[i] == rs[i];
        }
      }
      if k in m {
        var i :| 0 <= i < n && tag(rs[i].version) && Strip(rs[i].version) == k;
        assert rs'[i] == rs[i];
      }
      if tag(r.version) && k == Strip(r.version) {
        assert rs'[n] == r;
      }
    }
  }

  lemma TableStepValues(rs: seq<Release>, tag: string -> bool, m: map<string, bool>, r: Release)
    requires forall k :: k in m ==> exists i :: LastEntry(rs, tag, i, k) && m[k] == rs[i].lts
    ensures var rs', m' := rs + [r], TableStep(m, r, tag);
      forall k :: k in m' ==> exists i :: LastEntry(rs', tag, i, k) && m'[k] == rs'[i].lts
  {
    var rs' := rs + [r];
    var m' := TableStep(m, r, tag);
    var n := |rs|;
    forall k | k in m'
      ensures exists i :: LastEntry(rs', tag, i, k) && m'[k] == rs'[i].lts
    {
      if tag(r.version) && k == Strip(r.version) {
        assert rs'[n] == r;
        assert LastEntry(rs', tag, n, k);
      } else {
        var i :| LastEntry(rs, tag, i, k) && m[k] == rs[i].lts;
        forall j | i < j < |rs'| && tag(rs'[j].version)
          ensures Strip(rs'[j].version) != k
        {
          if j < n {
            assert rs'[j] == rs[j];
          }
        }
        assert rs'[i] == rs[i];
        assert LastEntry(rs', tag, i, k);
      }
    }
  }

  /** The `reduce` building `isLTS`: one key per tagged release, the later
      entry overwriting the earlier. */
  function Table(rs: seq<Release>, tag: string -> bool): (m: map<string, bool>)
    ensures TableOf(rs, tag, m)
  {
    if |rs| == 0 then map[]
    else
      var n := |rs| - 1;
      var m := Table(rs[..n], tag);
      TableStepKeeps(rs[..n], tag, m, rs[n]);
      assert rs[..n] + [rs[n]] == rs;
      TableStep(m, rs[n], tag)
  }

  /** The `isLTS` table of `getNodeVersion`. */
  function LtsTable(rs: seq<Release>): map<string, bool> {
    Table(rs, IsReleaseTag)
  }

  /** Keys are exactly the stripped release tags; each maps to the `lts`
      truthiness of the last release carrying that version. */
  lemma LtsTableSpec(rs: seq<Release>)
    ensures forall k :: k in LtsTable(rs) <==>
      exists i :: 0 <= i < |rs| && IsReleaseTag(rs[i].version) && Strip(rs[i].version) == k
    ensures forall k :: k in LtsTable(rs) ==>
      exists i :: LastEntry(rs, IsReleaseTag, i, k) && LtsTable(rs)[k] == rs[i].lts
  {
  }

  function Filter(rs: seq<Release>, keep: Release -> bool): (out: seq<Release>)
    ensures forall r :: r in out <==> r in rs && keep(r)
  {
    if |rs| == 0 then []
    else if keep(rs[0]) then [rs[0]] + Filter(rs[1..], keep)
    else Filter(rs[1..], keep)
  }

  /** `circleCITags.some(tag => 'v' + tag.name === release.version)`. */
  predicate OnCircle(r: Release, tags: seq<string>) {
    exists k :: 0 <= k < |tags| && "v" + tags[k] == r.version
  }

  /** The record `getNodeVersion` resolves to. */
  datatype VersionInfo = VersionInfo(
    isLts: map<string, bool>,
    stable: Option<string>,
    lts: Option<string>,
    stableCircle: Option<string>,
    ltsCircle: Option<string>)

  /** The pure part of `getNodeVersion`, given the release index and the names
      of the CircleCI node image tags. */
  function Resolve(rs: seq<Release>, tags: seq<string>): VersionInfo {
    VersionInfo(
      LtsTable(rs),
      MaxVersion(rs),
      MaxVersion(Filter(rs, (r: Release) => r.lts)),
      MaxVersion(Filter(rs, (r: Release) => OnCircle(r, tags))),
      MaxVersion(Filter(rs, (r: Release) => r.lts && OnCircle(r, tags))))
  }

  lemma SubsetMaxWith(sub: seq<Release>, all: seq<Release>, tag: string -> bool, key: string -> Option<Version>)
    requires forall r :: r in sub ==> r in all
    ensures var ms := MaxSatisfying(Candidates(sub, tag), key);
      var ma := MaxSatisfying(Candidates(all, tag), key);
      ms.Some? ==> ma.Some? && key(ms.value).Some? && key(ma.value).Some? && LessEq(key(ms.value).value, key(ma.value).value)
  {
    var ms := MaxSatisfying(Candidates(sub, tag), key);
    var ma := MaxSatisfying(Candidates(all, tag), key);
    MaxOverCandidates(sub, tag, key);
    if ms.Some? {
      var i :| 0 <= i < |sub| && tag(sub[i].version) && Strip(sub[i].version) == ms.value;
      assert sub[i] in all;
      var j :| 0 <= j < |all| && all[j] == sub[i];
      assert tag(all[j].version) && key(Strip(all[j].version)).Some?;
      MaxOverCandidates(all, tag, key);
      assert ma.Some?;
    }
  }

  /** A maximum over a subset of the releases exists only if the maximum over
      all of them does, and is not greater. */
  lemma SubsetMax(sub: seq<Release>, all: seq<Release>)
    requires forall r :: r in sub ==> r in all
    ensures MaxVersion(sub).Some? ==> MaxVersion(all).Some?
    ensures MaxVersion(sub).Some? ==>
      LessEq(SemverParse(MaxVersion(sub).value).value, SemverParse(MaxVersion(all).value).value)
  {
    SubsetMaxWith(sub, all, IsReleaseTag, SemverParse);
  }

  /** `lts`, `stable_circle` and `lts_circle` never exceed `stable`, and
      `lts_circle` exceeds neither `lts` nor `stable_circle`. */
  lemma ResolveBounds(rs: seq<Release>, tags: seq<string>)
    ensures var v := Resolve(rs, tags);
      v.lts.Some? ==> v.stable.Some? && LessEq(SemverParse(v.lts.value).value, SemverParse(v.stable.value).value)
    ensures var v := Resolve(rs, tags);
      v.stableCircle.Some? ==> v.stable.Some? && LessEq(SemverParse(v.stableCircle.value).value, SemverParse(v.stable.value).value)
    ensures var v := Resolve(rs, tags);
      v.ltsCircle.Some? ==> v.lts.Some? && LessEq(SemverParse(v.ltsCircle.value).value, SemverParse(v.lts.value).value)
    ensures var v := Resolve(rs, tags);
      v.ltsCircle.Some? ==> v.stableCircle.Some? && LessEq(SemverParse(v.ltsCircle.value).value, SemverParse(v.stableCircle.value).value)
  {
    var l := Filter(rs, (r: Release) => r.lts);
    var c := Filter(rs, (r: Release) => OnCircle(r, tags));
    var lc := Filter(rs, (r: Release) => r.lts && OnCircle(r, tags));
    SubsetMax(l, rs);
    SubsetMax(c, rs);
    SubsetMax(lc, l);
    SubsetMax(lc, c);
  }

  lemma MaxIsTag(c: seq<Release>, tags: seq<string>)
    requires forall r :: r in c ==> OnCircle(r, tags)
    ensures MaxVersion(c).Some? ==> MaxVersion(c).value in tags
  {
    var m := MaxVersion(c);
    if m.Some? {
      MaxOverCandidates(c, IsReleaseTag, SemverParse);
      var i :| 0 <= i < |c| && IsReleaseTag(c[i].version) && Strip(c[i].version) == m.value;
      assert c[i] in c;
      var k :| 0 <= k < |tags| && "v" + tags[k] == c[i].version;
      assert Strip(c[i].version) == tags[k];
    }
  }

  /** The CircleCI-restricted targets are names of CircleCI image tags. */
  lemma CircleTargetsAreTags(rs: seq<Release>, tags: seq<string>)
    ensures var v := Resolve(rs, tags); v.stableCircle.Some? ==> v.stableCircle.value in tags
    ensures var v := Resolve(rs, tags); v.ltsCircle.Some? ==> v.ltsCircle.value in tags
  {
    MaxIsTag(Filter(rs, (r: Release) => OnCircle(r, tags)), tags);
    MaxIsTag(Filter(rs, (r: Release) => r.lts && OnCircle(r, tags)), tags);
  }
}
